=== FILE: README.md ===
# Document checks of the PDF reader service, in Dafny

This project models the programmatic check engine of the PDF reader
service (`pdf_reader_service/app/checks.py`). The engine is seven
independent rules. Each takes an opened PDF and returns a list of findings
about immigration-form paperwork:

- **edition dates**: the texts beside every "Edition Date" label must all agree;
- **signature date format**: date-like texts beside every "Signature of" label must be written mm/dd/yyyy;
- **signature date recency**: every mm/dd/yyyy date that is a real calendar date must lie within the last 90 days;
- **preparer**: "Jeffrey Hales" must be listed as preparer, and the preparer's signature must carry a date;
- **missing pages**: the "Page n of m" stamps of each form must cover pages 1 to m;
- **A-Number consistency**: exactly one distinct A-Number (`A` and nine digits) must appear;
- **Form I-131 item 3.a**: on page 7 of an I-131, the answer area of item 3.a must not show "YES".

A document is a sequence of pages (`Document.Page`). Each page has its
plain text, its width, and the two layout queries the rules use. The first
is the page search, which returns the rectangles where a text appears. The
second reads the text inside a rectangle. The model takes both queries as
given functions of the page. The rectangle each rule reads is computed
exactly as in the code, from the hit rectangle and the code's constants
(200, 30 and 100 units).

Findings are a datatype with one constructor per message, carrying the
values the message shows (`Document.Finding`).

The five regular expressions are modelled in `Patterns` as matchers with
Python's semantics:
- `re.search` takes the leftmost match, and `re.findall` scans left to right without overlaps;
- quantifiers are greedy, and backtracking picks the first alternative that succeeds;
- for each pattern, a declarative "shape" predicate is proved to hold exactly for the engine's choice.

`strptime("%m/%d/%Y")` and `date.toordinal()` are modelled in `Calendar`.

Modules:
- `Chars`: character classes, decimal values, `str.strip()`, substring containment;
- `Scanning`: the generic leftmost, non-overlapping scanner;
- `Patterns`: the five patterns, `findall` and `search`;
- `Calendar`: dates, strptime, day numbers and the 90-day window;
- `Document`: pages, rectangles and findings;
- `AnchoredChecks`: the edition date, signature format and item 3.a rules;
- `TextChecks`: the recency, preparer and A-Number rules;
- `PageSequences`: the missing-pages rule.

Three behaviours of the code are easy to misread:
- **Recency window.** The window compares full timestamps: `now - 90 days <= date at midnight <= now`. In whole days, the day exactly 90 days back is inside the window only when the clock reads exactly midnight (`Calendar.WindowInDays`).
- **A form's page count.** It is the count on the FIRST stamped page of that form (checks.py:107-108); later stamps of the form with another count do not change it.
- **Item 3.a area.** The rectangle ends at the right edge of the question text and reaches 100 units to the left of that edge, so it lies over the end of the question itself (checks.py:160).

## Model

| member | source | states |
|---|---|---|
| Chars.Strip | pdf_reader_service/app/checks.py:18 | `str.strip()`: the result is a slice of the input with only whitespace cut on either side, starts and ends with non-whitespace, and is empty exactly when the input is all whitespace |
| Chars.DecimalValue | pdf_reader_service/app/checks.py:106 | `int()` of a digit string is a natural number below 10 to the power of the string's length |
| Chars.PadValue | pdf_reader_service/app/checks.py:61 | a number written zero-padded to a width it fits in reads back as the same number |
| Chars.ValuePad | pdf_reader_service/app/checks.py:61 | a digit string is the zero-padded rendering of its own value, so leading zeros are not lost |
| Patterns.LooseDateEngineChoice | pdf_reader_service/app/checks.py:40 | the match `\d{1,2}/\d{1,2}/\d{2,4}` makes at a position is the greedy/backtracking choice among all ways the pattern fits, and there is a match exactly when some way fits |
| Patterns.FormNameEngineChoice | pdf_reader_service/app/checks.py:100 | the same for `Form\sI-\d{3,4}\w?`: four digits are taken when there are four, and the trailing word character whenever one follows |
| Patterns.PageOfEngineChoice | pdf_reader_service/app/checks.py:104 | the same for `Page\s(\d+)\s+of\s+(\d+)`: the first three runs are forced and the second number takes every digit that follows |
| Patterns.FindAllComplete | pdf_reader_service/app/checks.py:40 | `re.findall` reports every position where the pattern matches, except positions strictly inside a match it already reported |
| Patterns.MatchStarts | pdf_reader_service/app/checks.py:40 | the positions where `re.findall` takes its matches: each one is a match, and they increase without overlapping |
| Patterns.Search | pdf_reader_service/app/checks.py:79 | `re.search` returns a matching position with no match before it, and returns nothing exactly when no position matches |
| Patterns.SearchIsFirstFound | pdf_reader_service/app/checks.py:79 | `re.search` finds nothing exactly when `re.findall` finds nothing, and otherwise finds `findall`'s first match |
| Patterns.FoundStrictDates | pdf_reader_service/app/checks.py:58 | every `\d{2}/\d{2}/\d{4}` match is ten characters in the shape dd/dd/dddd |
| Patterns.FoundANumbers | pdf_reader_service/app/checks.py:126-130 | every `A\d{9}` match is `A` followed by nine digits |
| Patterns.LooseDateStrictness | pdf_reader_service/app/checks.py:40-42 | a loose date candidate passes `date_format_regex.match` exactly when it is ten characters long, whatever its calendar value |
| Calendar.ParseDate | pdf_reader_service/app/checks.py:61 | every date `strptime("%m/%d/%Y")` returns has year 1..9999, month 1..12 and a day the month has, leap years included |
| Calendar.ParseFormatted | pdf_reader_service/app/checks.py:61 | every valid date is parsed back from its mm/dd/yyyy rendering |
| Calendar.FormatParsed | pdf_reader_service/app/checks.py:61 | every accepted string is the rendering of the date parsed from it |
| Calendar.Feb30Rejected | pdf_reader_service/app/checks.py:60-65 | "02/30/2024" is not a date, so strptime raises and the candidate is skipped |
| Calendar.OrdinalCountsDays | pdf_reader_service/app/checks.py:54 | consecutive calendar days have consecutive day numbers, so `timedelta(days=90)` is 90 calendar days |
| Calendar.YearLength | pdf_reader_service/app/checks.py:54 | a year has 365 days, plus one in a Gregorian leap year |
| Calendar.WindowInDays | pdf_reader_service/app/checks.py:53-62 | a date is in the window exactly when it is no later than today and later than 90 days ago, or is 90 days ago with the clock at midnight |
| Document.Gather | pdf_reader_service/app/checks.py:14-20 | the set collected over the pages holds exactly what some page contributes |
| AnchoredChecks.EditionDates | pdf_reader_service/app/checks.py:11-25 | at most one finding; there is one exactly when more than one distinct non-empty edition text appears in the document, and it lists all of them |
| AnchoredChecks.SameEditionEverywhere | pdf_reader_service/app/checks.py:22-23 | a document whose edition texts are all one value or empty gets no finding |
| AnchoredChecks.FormatFindings | pdf_reader_service/app/checks.py:41-43 | the findings for a list of candidates are exactly the candidates that do not start with dd/dd/dddd, with the page number, each reported as many times as it occurs in the list |
| AnchoredChecks.FormatFindingsAt | pdf_reader_service/app/checks.py:37-43 | a page's findings are exactly its badly written dates near any of its "Signature of" hits, each reported once per occurrence near each hit, so a date inside two overlapping areas is reported twice |
| AnchoredChecks.SignatureDateFormat | pdf_reader_service/app/checks.py:35-45 | a finding exists exactly for each page (numbered from 1) and badly written date-like text near one of its "Signature of" labels; each is reported once per occurrence near each label; findings come in page order |
| AnchoredChecks.TenCharacterDatesPass | pdf_reader_service/app/checks.py:40-42 | no reported date is ten characters long, so 2/2/4-digit candidates such as 13/40/2024 are never reported |
| AnchoredChecks.Box3a | pdf_reader_service/app/checks.py:151-165 | every finding is the item 3.a finding, and there is exactly one per flagged page, so at most one per page |
| AnchoredChecks.Box3aFirstHitOnly | pdf_reader_service/app/checks.py:157-162 | only the first hit of the question matters: pages agreeing on text, first hit and its area get the same verdict |
| AnchoredChecks.Box3aNeedsPage7OfI131 | pdf_reader_service/app/checks.py:153 | a page whose text lacks "I-131" or "Page 7 of" is never flagged |
| TextChecks.StaleFindings | pdf_reader_service/app/checks.py:59-65 | a page's findings are exactly its candidates that strptime accepts and that lie outside the window, each reported as many times as it occurs |
| TextChecks.SignatureDateRecency | pdf_reader_service/app/checks.py:56-66 | a finding exists exactly for each page and found dd/dd/dddd date that is a real date outside the last 90 days, once per occurrence of the date on the page; findings come in page order |
| TextChecks.StaleInDays | pdf_reader_service/app/checks.py:53-62 | every reported date is a real date later than today, or earlier than 90 days ago, or exactly 90 days ago with the clock past midnight |
| TextChecks.InvalidDatesSkipped | pdf_reader_service/app/checks.py:60-65 | a candidate strptime rejects is never reported, whatever the clock reads |
| TextChecks.TodayIsRecent | pdf_reader_service/app/checks.py:62 | today's date, written mm/dd/yyyy, is never reported |
| TextChecks.PreparerPages | pdf_reader_service/app/checks.py:75-80 | a finding exists exactly for each page listing the preparer, containing "Preparer's Signature" and with no date match; pages strictly increase |
| TextChecks.SearchFindsNoDate | pdf_reader_service/app/checks.py:79 | `re.search` finds no date exactly when no dd/dd/dddd shape starts anywhere in the text |
| TextChecks.Preparer | pdf_reader_service/app/checks.py:73-85 | with no page listing the preparer, the result is exactly the single "not found" finding; otherwise it is one finding per page that lists the name and has the signature label but no dd/dd/dddd text anywhere, in increasing page order |
| TextChecks.PreparerAnyDateCounts | pdf_reader_service/app/checks.py:79 | a preparer page showing any dd/dd/dddd shape, even a non-date, is not reported |
| TextChecks.ANumbers | pdf_reader_service/app/checks.py:124-139 | exactly the "none found" finding when no A-Number appears, nothing when exactly one distinct A-Number appears, and one finding listing them all when several appear |
| TextChecks.ANumbersWellFormed | pdf_reader_service/app/checks.py:126-132 | every listed A-Number is `A` followed by nine digits |
| TextChecks.SameANumberEverywhere | pdf_reader_service/app/checks.py:134-137 | repeating one A-Number on any number of pages gives no finding |
| PageSequences.FormOf | pdf_reader_service/app/checks.py:100-101 | the form is "Unknown Form" exactly when the text has no form-name match, and otherwise is the text of the leftmost match, with as many digits and trailing word characters as the pattern can take there |
| PageSequences.StampWithoutFormName | pdf_reader_service/app/checks.py:101 | a stamped page naming no form is counted under "Unknown Form" |
| PageSequences.PageLabel | pdf_reader_service/app/checks.py:104-106 | a page has a stamp exactly when the text has a "Page n of m" match, and the pair is the values of the two digit runs of the leftmost match, the second run taken whole |
| PageSequences.StampUnique | pdf_reader_service/app/checks.py:104-106 | two readings of a stamp at the same position give the same pair, so the pair `PageLabel` states is the only one possible |
| PageSequences.GroupCorrect | pdf_reader_service/app/checks.py:97-109 | the groups built page by page have distinct forms in first-seen order, take their page count from the form's first stamped page, and hold exactly the page numbers declared for the form; every stamped form has a group |
| PageSequences.MissingUpTo | pdf_reader_service/app/checks.py:112-115 | the missing list is strictly ascending and holds exactly the numbers 1..total that are not declared |
| PageSequences.ReportFromGroup | pdf_reader_service/app/checks.py:111-115 | each reported finding is the finding of one of the groups |
| PageSequences.GroupReported | pdf_reader_service/app/checks.py:111-115 | every group with a missing page has its finding in the report |
| PageSequences.ReportInGroupOrder | pdf_reader_service/app/checks.py:111 | two findings appear in the order of the groups they come from |
| PageSequences.MissingPageNumbers | pdf_reader_service/app/checks.py:89-117 | every finding is a missing-pages finding with a non-empty list |
| PageSequences.StampFindingsMissing | pdf_reader_service/app/checks.py:111-115 | for any sequence of page stamps, every finding names a stamped form and lists, ascending, exactly the numbers from 1 to the count on its first stamped page that no stamp of the form declares |
| PageSequences.StampMissingReported | pdf_reader_service/app/checks.py:111-115 | for any sequence of page stamps, every stamped form missing a page number has a finding |
| PageSequences.StampFindingsOrdered | pdf_reader_service/app/checks.py:111 | for any sequence of page stamps, findings follow the order in which their forms are first stamped |
| PageSequences.FindingsAreMissing | pdf_reader_service/app/checks.py:111-115 | every finding names a stamped form and lists exactly the numbers from 1 to the count on its first stamped page that no stamp of the form declares, so declared numbers above the count never appear |
| PageSequences.MissingAreReported | pdf_reader_service/app/checks.py:111-115 | every stamped form missing a page number has a finding |
| PageSequences.ReportedInFirstSeenOrder | pdf_reader_service/app/checks.py:111 | findings follow the order in which forms are first stamped, so no form is reported twice |
| PageSequences.CompleteFormNotReported | pdf_reader_service/app/checks.py:114 | a form whose stamps declare every page from 1 to its count produces no finding |

## Left out

- checks.py has no registry mapping names to these functions and no runner that calls them; neither service entry point shown does either, so there is nothing of that kind to model. The gateway posts the file with `checks_to_run` set to `'all'` to a `/run-programmatic-checks/` endpoint of the PDF reader service (apigateway_service/app/main.py:47-51 and 108-113), but no file shown here defines that endpoint; whatever runs the checks there is not part of this model.
- `apigateway_service/app/main.py`, `pdf_reader_service/app/main.py` and `pdf_reader_service/app/verifier.py` are not part of this model. They hold HTTP routing, API keys, Slack signatures, PDF text extraction and a call to a hosted AI model, which are I/O and foreign calls.
- PDF layout is not modelled. `page.search_for` and `page.get_text(clip=...)` are given functions of the page. The model does not say where text sits or how clipping chooses characters; only the rectangles passed to clipping are computed.
- Message text is not modelled. Findings carry the values each message shows. Where a message prints `list(...)` of a Python set, the finding carries the set, because set iteration order is not defined.
- `\d` and `\w` are taken as ASCII. Python's `str` patterns also accept non-ASCII decimal digits and letters, and `int()` and `strptime` read non-ASCII digits too. `\s` and `strip()` use Python's whitespace set.
- The clock is a parameter: a day number of at least 91 and the microseconds since midnight. Subtracting 90 days in the first 90 days of year 1 raises OverflowError in Python; that case is not modelled.
- `int()` raises ValueError for digit strings longer than Python's default limit of 4300 digits; `Chars.DecimalValue` has no such limit.
- Exceptions raised by the PDF library are not modelled.
- PageSequences.MissingPageNumbers: its own contract states only the shape of the findings; what they contain is stated by `FindingsAreMissing`, `MissingAreReported` and `ReportedInFirstSeenOrder`.
- FormatFindings: the contract gives each finding's count but not the order of findings within the list, which follows the candidates.
- FormatFindingsAt: the order within a page (hit by hit, then candidate by candidate) is not stated; the counts are.
- SignatureDateFormat: findings are stated in page order with their counts; the order within one page is not stated.
- StaleFindings: the contract gives each finding's count but not the order, which follows the matches on the page.
- SignatureDateRecency: findings are stated in page order with their counts; the order within one page is not stated.

=== FILE: anchored.dfy ===
/** The checks that read the text next to an anchor label: the edition
    dates to the right of "Edition Date", the dates near "Signature of",
    and the answer to item 3.a on page 7 of Form I-131. Each reads a
    rectangle placed relative to where the page search found the label. */
module AnchoredChecks {
  import opened Chars
  import opened Patterns
  import opened Document

  // ----- edition dates ---------------------------------------------------------

  const EditionLabel := "Edition Date"
  /** How far to the right of the label the edition date is read. */
  const EditionClipWidth: real := 200.0

  /** The strip to the right of an "Edition Date" hit, on the same line. */
  function EditionClip(hit: Rect): Rect {
    Rect(hit.x1, hit.y0, hit.x1 + EditionClipWidth, hit.y1)
  }

  /** The stripped text beside the `k`-th "Edition Date" hit of a page. */
  function EditionText(page: Page, k: nat): string
    requires k < |page.search(EditionLabel)|
  {
    Strip(page.clip(EditionClip(page.search(EditionLabel)[k])))
  }

  /** The non-empty edition texts of one page. */
  function EditionDatesOn(page: Page): set<string> {
    set k | 0 <= k < |page.search(EditionLabel)| && EditionText(page, k) != "" :: EditionText(page, k)
  }

  /** Every distinct non-empty edition text in the document. */
  ghost function EditionDateValues(doc: seq<Page>): set<string> {
    set p, k | 0 <= p < |doc| && 0 <= k < |doc[p].search(EditionLabel)| && EditionText(doc[p], k) != ""
             :: EditionText(doc[p], k)
  }

  /** Inconsistent edition dates: one finding, listing every edition text
      seen, exactly when more than one distinct text was seen. Empty texts
      (a label with nothing beside it) are ignored. */
  function EditionDates(doc: seq<Page>): (r: seq<Finding>)
    ensures |r| <= 1
    ensures r != [] <==> |EditionDateValues(doc)| > 1
    ensures r != [] ==> r[0] == InconsistentEditionDates(EditionDateValues(doc))
  {
    var dates := Gather(doc, EditionDatesOn);
    EditionDatesGathered(doc);
    if |dates| > 1 then [InconsistentEditionDates(dates)] else []
  }

  lemma EditionDatesGathered(doc: seq<Page>)
    ensures Gather(doc, EditionDatesOn) == EditionDateValues(doc)
  {
    var g := Gather(doc, EditionDatesOn);
    forall x | x in EditionDateValues(doc) ensures x in g {
      var p, k :| 0 <= p < |doc| && 0 <= k < |doc[p].search(EditionLabel)|
                  && EditionText(doc[p], k) != "" && x == EditionText(doc[p], k);
      assert x in EditionDatesOn(doc[p]);
    }
  }

  /** When every page shows the same edition text (or none), nothing is
      reported. */
  lemma SameEditionEverywhere(doc: seq<Page>, e: string)
    requires forall p, k :: 0 <= p < |doc| && 0 <= k < |doc[p].search(EditionLabel)| ==>
               EditionText(doc[p], k) in {"", e}
    ensures EditionDates(doc) == []
  {
    assert EditionDateValues(doc) <= {e};
    SubsetOfSingleton(EditionDateValues(doc), e);
  }

  lemma SubsetOfSingleton(s: set<string>, e: string)
    requires s <= {e}
    ensures |s| <= 1
  {
    if s != {} {
      assert s == {e};
    }
  }

  // ----- signature date format -------------------------------------------------

  const SignatureLabel := "Signature of"
  /** How far below the label the signature area extends. */
  const SignatureClipDrop: real := 30.0

  /** From the start of a "Signature of" hit to the right edge of the page,
      down to a little below the label. */
  function SignatureClip(page: Page, hit: Rect): Rect {
    Rect(hit.x0, hit.y0, page.width, hit.y1 + SignatureClipDrop)
  }

  /** `\d{2}/\d{2}/\d{4}` matches at the start of `c` (`re.match`). */
  predicate HasStrictFormat(c: string) {
    MatchesAt(StrictDate, c, 0)
  }

  /** The loose date candidates found next to one hit. */
  function CandidatesNear(page: Page, hit: Rect): seq<string> {
    FindAll(LooseDate, page.clip(SignatureClip(page, hit)))
  }

  /** `c` is a date-like text near one of the given hits that is not
      written mm/dd/yyyy. */
  ghost predicate BadNear(page: Page, hits: seq<Rect>, c: string) {
    && !HasStrictFormat(c)
    && exists hit :: hit in hits && c in CandidatesNear(page, hit)
  }

  /** `c` is reported for the page: a bad date near a "Signature of" hit. */
  ghost predicate BadSignatureDate(page: Page, c: string) {
    BadNear(page, page.search(SignatureLabel), c)
  }

  /** How many times `c` is a candidate near the given hits, counted hit by
      hit: a date lying in two overlapping areas counts twice. */
  ghost function NearCount(page: Page, hits: seq<Rect>, c: string): nat {
    if hits == [] then 0
    else multiset(CandidatesNear(page, hits[0]))[c] + NearCount(page, hits[1..], c)
  }

  /** How many findings the rule owes a page for the text `c`. */
  ghost function BadCount(page: Page, c: string): nat {
    if HasStrictFormat(c) then 0 else NearCount(page, page.search(SignatureLabel), c)
  }

  /** How many times the rule reports `f` for a document. */
  ghost function FormatCount(doc: seq<Page>, f: Finding): nat {
    if f.InvalidSignatureDateFormat? && 1 <= f.page <= |doc| then BadCount(doc[f.page - 1], f.date) else 0
  }

  /** One finding per candidate, in order, for those not written mm/dd/yyyy;
      a repeated candidate is reported as often as it occurs. */
  function FormatFindings(cands: seq<string>, number: nat): (r: seq<Finding>)
    ensures forall f :: f in r <==>
              f.InvalidSignatureDateFormat? && f.page == number && f.date in cands && !HasStrictFormat(f.date)
    ensures forall c :: multiset(r)[InvalidSignatureDateFormat(number, c)] ==
              if HasStrictFormat(c) then 0 else multiset(cands)[c]
  {
    if cands == [] then []
    else
      assert cands == [cands[0]] + cands[1..];
      (if HasStrictFormat(cands[0]) then [] else [InvalidSignatureDateFormat(number, cands[0])])
        + FormatFindings(cands[1..], number)
  }

  /** The findings for a list of hits on one page, hit by hit. */
  function FormatFindingsAt(page: Page, hits: seq<Rect>, number: nat): (r: seq<Finding>)
    ensures forall f :: f in r <==>
              f.InvalidSignatureDateFormat? && f.page == number && BadNear(page, hits, f.date)
    ensures forall c :: multiset(r)[InvalidSignatureDateFormat(number, c)] ==
              if HasStrictFormat(c) then 0 else NearCount(page, hits, c)
  {
    if hits == [] then []
    else
      var r := FormatFindings(CandidatesNear(page, hits[0]), number) + FormatFindingsAt(page, hits[1..], number);
      assert forall c :: BadNear(page, hits, c) <==>
               (!HasStrictFormat(c) && c in CandidatesNear(page, hits[0])) || BadNear(page, hits[1..], c) by {
        forall c ensures BadNear(page, hits, c) <==>
                 (!HasStrictFormat(c) && c in CandidatesNear(page, hits[0])) || BadNear(page, hits[1..], c) {
          if BadNear(page, hits, c) {
            var hit :| hit in hits && c in CandidatesNear(page, hit);
            if hit != hits[0] {
              assert hit in hits[1..];
            }
          }
          if BadNear(page, hits[1..], c) {
            var hit :| hit in hits[1..] && c in CandidatesNear(page, hit);
            assert hit in hits;
          }
        }
      }
      r
  }

  /** Signature date format: for every page (numbered from 1), every
      date-like text (`\d{1,2}/\d{1,2}/\d{2,4}`) near a "Signature of" label
      that is not mm/dd/yyyy is reported with its page number, once per
      occurrence near each label, in page order. */
  function SignatureDateFormat(doc: seq<Page>): (r: seq<Finding>)
    ensures forall f :: f in r <==> ReportedFormat(doc, f)
    ensures forall f :: multiset(r)[f] == FormatCount(doc, f)
    ensures forall i, j :: 0 <= i < j < |r| ==> PageNumber(r[i]) <= PageNumber(r[j])
  {
    if doc == [] then []
    else
      var front := SignatureDateFormat(doc[..|doc| - 1]);
      var last := doc[|doc| - 1];
      var here := FormatFindingsAt(last, last.search(SignatureLabel), |doc|);
      FormatStep(doc, front, here);
      FormatCountStep(doc, front, here);
      front + here
  }

  /** What the signature date format rule reports for a document. */
  ghost predicate ReportedFormat(doc: seq<Page>, f: Finding) {
    && f.InvalidSignatureDateFormat?
    && 1 <= f.page <= |doc|
    && BadSignatureDate(doc[f.page - 1], f.date)
  }

  lemma FormatStep(doc: seq<Page>, front: seq<Finding>, here: seq<Finding>)
    requires doc != []
    requires forall f :: f in front <==> ReportedFormat(doc[..|doc| - 1], f)
    requires forall i, j :: 0 <= i < j < |front| ==> PageNumber(front[i]) <= PageNumber(front[j])
    requires forall f :: f in here <==>
               f.InvalidSignatureDateFormat? && f.page == |doc| && BadSignatureDate(doc[|doc| - 1], f.date)
    ensures forall f :: f in front + here <==> ReportedFormat(doc, f)
    ensures forall i, j :: 0 <= i < j < |front + here| ==> PageNumber((front + here)[i]) <= PageNumber((front + here)[j])
  {
    var prefix := doc[..|doc| - 1];
    forall f ensures ReportedFormat(prefix, f) <==> ReportedFormat(doc, f) && f.page < |doc| {
      if f.InvalidSignatureDateFormat? && 1 <= f.page < |doc| {
        assert prefix[f.page - 1] == doc[f.page - 1];
      }
    }
    var r := front + here;
    forall i, j | 0 <= i < j < |r| ensures PageNumber(r[i]) <= PageNumber(r[j]) {
      assert r[i] in front || r[i] in here;
      assert r[j] in front || r[j] in here;
      if i < |front| && j >= |front| {
        assert r[i] in front && r[j] in here;
      }
    }
  }

  /** The counts of the document without its last page, plus those of the
      last page, are the document's counts. */
  lemma FormatCountStep(doc: seq<Page>, front: seq<Finding>, here: seq<Finding>)
    requires doc != []
    requires forall f :: multiset(front)[f] == FormatCount(doc[..|doc| - 1], f)
    requires forall f :: f in here ==> f.InvalidSignatureDateFormat? && f.page == |doc|
    requires forall c :: multiset(here)[InvalidSignatureDateFormat(|doc|, c)] == BadCount(doc[|doc| - 1], c)
    ensures forall f :: multiset(front + here)[f] == FormatCount(doc, f)
  {
    forall f ensures multiset(front + here)[f] == FormatCount(doc, f) {
      assert multiset(front + here)[f] == multiset(front)[f] + multiset(here)[f];
      if f.InvalidSignatureDateFormat? && f.page == |doc| {
        assert multiset(front)[f] == FormatCount(doc[..|doc| - 1], f);
        assert multiset(here)[f] == BadCount(doc[|doc| - 1], f.date);
      } else {
        OtherPageCount(doc, f);
        assert multiset(front)[f] == FormatCount(doc[..|doc| - 1], f);
        NotInCountsZero(here, f);
      }
    }
  }

  /** The count of a finding not on the last page is the same with or
      without that page. */
  lemma OtherPageCount(doc: seq<Page>, f: Finding)
    requires doc != [] && !(f.InvalidSignatureDateFormat? && f.page == |doc|)
    ensures FormatCount(doc[..|doc| - 1], f) == FormatCount(doc, f)
  {
    if f.InvalidSignatureDateFormat? && 1 <= f.page < |doc| {
      assert doc[..|doc| - 1][f.page - 1] == doc[f.page - 1];
    }
  }

  /** A candidate that is ten characters long is never reported: the loose
      and strict patterns disagree only on length. */
  lemma TenCharacterDatesPass(doc: seq<Page>)
    ensures forall f :: f in SignatureDateFormat(doc) ==> |f.date| != 10
  {
    forall f | f in SignatureDateFormat(doc) ensures |f.date| != 10 {
      var page := doc[f.page - 1];
      var hit :| hit in page.search(SignatureLabel) && f.date in CandidatesNear(page, hit);
      LooseDateStrictness(page.clip(SignatureClip(page, hit)));
    }
  }

  // ----- Form I-131, page 7, item 3.a -------------------------------------------

  const I131Marker := "I-131"
  const Page7Marker := "Page 7 of"
  const Box3aQuestion := "3.a. Are you, or any other person included in this application, now in exclusion"
  /** How far to the left of the question's right edge the answer is read. */
  const Box3aClipWidth: real := 100.0
  const YesMark := "YES"

  /** The last stretch of the question's line, ending at its right edge. */
  function Box3aClip(hit: Rect): Rect {
    Rect(hit.x1 - Box3aClipWidth, hit.y0, hit.x1, hit.y1)
  }

  /** The page is page 7 of an I-131, has the item 3.a question, and "YES"
      appears in the area read for the first place the question was found. */
  predicate Box3aFlagged(page: Page) {
    && Contains(page.text, I131Marker)
    && Contains(page.text, Page7Marker)
    && page.search(Box3aQuestion) != []
    && Contains(page.clip(Box3aClip(page.search(Box3aQuestion)[0])), YesMark)
  }

  /** Item 3.a: one (identical) finding per flagged page. */
  function Box3a(doc: seq<Page>): (r: seq<Finding>)
    ensures forall f :: f in r ==> f == Box3aMarkedYes
    ensures |r| == |FlaggedPages(doc)| <= |doc|
  {
    if doc == [] then []
    else
      var front := Box3a(doc[..|doc| - 1]);
      FlaggedPagesStep(doc);
      front + (if Box3aFlagged(doc[|doc| - 1]) then [Box3aMarkedYes] else [])
  }

  /** The positions of the flagged pages. */
  ghost function FlaggedPages(doc: seq<Page>): set<nat> {
    set p: nat | p < |doc| && Box3aFlagged(doc[p])
  }

  lemma FlaggedPagesStep(doc: seq<Page>)
    requires doc != []
    ensures FlaggedPages(doc) ==
              FlaggedPages(doc[..|doc| - 1]) + (if Box3aFlagged(doc[|doc| - 1]) then {|doc| - 1} else {})
    ensures |FlaggedPages(doc)| == |FlaggedPages(doc[..|doc| - 1])| + (if Box3aFlagged(doc[|doc| - 1]) then 1 else 0)
  {
    var front := doc[..|doc| - 1];
    assert forall p :: 0 <= p < |front| ==> front[p] == doc[p];
    assert |doc| - 1 !in FlaggedPages(front);
  }

  /** Only the first place the question is found matters: two pages that
      agree on their text and on the answer area of the first hit get the
      same verdict, whatever their other hits show. */
  lemma Box3aFirstHitOnly(a: Page, b: Page)
    requires a.text == b.text
    requires a.search(Box3aQuestion) != [] && b.search(Box3aQuestion) != []
    requires a.search(Box3aQuestion)[0] == b.search(Box3aQuestion)[0]
    requires a.clip(Box3aClip(a.search(Box3aQuestion)[0])) == b.clip(Box3aClip(b.search(Box3aQuestion)[0]))
    ensures Box3aFlagged(a) <==> Box3aFlagged(b)
  {
  }

  /** A page that is not page 7 of an I-131 is never flagged, whatever its
      answer area shows. */
  lemma Box3aNeedsPage7OfI131(page: Page)
    requires !Contains(page.text, I131Marker) || !Contains(page.text, Page7Marker)
    ensures !Box3aFlagged(page)
  {
  }
}

=== FILE: calendar.dfy ===
/** The calendar arithmetic behind the recency rule: which `mm/dd/yyyy`
    strings `datetime.strptime(s, "%m/%d/%Y")` accepts and the date they
    denote, Python's proleptic Gregorian day numbers (`date.toordinal()`),
    and the comparison of a signature date against the window
    `[now - 90 days, now]` taken at the clock's time of day. */
module Calendar {
  import opened Chars
  import opened Patterns

  datatype Date = Date(year: int, month: int, day: int)

  predicate IsLeapYear(y: int) {
    y % 4 == 0 && (y % 100 != 0 || y % 400 == 0)
  }

  function DaysInMonth(y: int, m: int): (n: int)
    requires 1 <= m <= 12
    ensures 28 <= n <= 31
  {
    if m == 2 then (if IsLeapYear(y) then 29 else 28)
    else if m == 4 || m == 6 || m == 9 || m == 11 then 30
    else 31
  }

  /** A date `datetime` can represent: years 1 (MINYEAR) to 9999 (MAXYEAR),
      months 1 to 12, and a day that exists in that month. */
  predicate ValidDate(d: Date) {
    && 1 <= d.year <= 9999
    && 1 <= d.month <= 12
    && 1 <= d.day <= DaysInMonth(d.year, d.month)
  }

  /** `datetime.strptime(s, "%m/%d/%Y")` for a string of the shape
      `\d{2}/\d{2}/\d{4}`: the date it denotes, or None where strptime
      raises ValueError (month or day out of range, a day the month does
      not have, or year 0000). */
  function ParseDate(s: string): (r: Option<Date>)
    requires |s| == 10 && StrictDateAt(s, 0)
    ensures r.Some? ==> ValidDate(r.value)
  {
    var d := Date(DecimalValue(s[6..10]), DecimalValue(s[0..2]), DecimalValue(s[3..5]));
    if ValidDate(d) then Some(d) else None
  }

  /** The `%m/%d/%Y` rendering of a date, zero-padded. */
  function FormatDate(d: Date): (s: string)
    requires ValidDate(d)
    ensures |s| == 10 && StrictDateAt(s, 0)
  {
    Pad(d.month, 2) + "/" + Pad(d.day, 2) + "/" + Pad(d.year, 4)
  }

  /** Every valid date is read back from its rendering. */
  lemma ParseFormatted(d: Date)
    requires ValidDate(d)
    ensures ParseDate(FormatDate(d)) == Some(d)
  {
    var s := FormatDate(d);
    assert s[0..2] == Pad(d.month, 2);
    assert s[3..5] == Pad(d.day, 2);
    assert s[6..10] == Pad(d.year, 4);
    PadValue(d.month, 2);
    PadValue(d.day, 2);
    PadValue(d.year, 4);
  }

  /** A string strptime accepts is exactly the rendering of its date: the
      parse loses nothing. */
  lemma FormatParsed(s: string)
    requires |s| == 10 && StrictDateAt(s, 0)
    requires ParseDate(s).Some?
    ensures FormatDate(ParseDate(s).value) == s
  {
    ValuePad(s[0..2]);
    ValuePad(s[3..5]);
    ValuePad(s[6..10]);
    assert s == s[0..2] + "/" + s[3..5] + "/" + s[6..10];
  }

  /** strptime rejects a day the month does not have: there is no
      30 February, even in a leap year. */
  lemma Feb30Rejected()
    ensures ParseDate("02/30/2024") == None
  {
    var s := "02/30/2024";
    assert s[0..2] == "02" && s[3..5] == "30" && s[6..10] == "2024";
    assert DecimalValue("02") == 2;
    assert DecimalValue("30") == 30;
    assert "2024"[..3] == "202" && "202"[..2] == "20" && "20"[..1] == "2";
    assert DecimalValue("2024") == 2024;
  }

  // ----- day numbers ---------------------------------------------------------

  /** Days in the years before `y` (Python's `_days_before_year`). */
  function DaysBeforeYear(y: int): int
    requires y >= 1
  {
    var a := y - 1;
    a * 365 + a / 4 - a / 100 + a / 400
  }

  /** Days in the months of year `y` before month `m` (Python's
      `_days_before_month`: a fixed table, plus one after February in a
      leap year). */
  function DaysBeforeMonth(y: int, m: int): int
    requires 1 <= m <= 12
  {
    [0, 31, 59, 90, 120, 151, 181, 212, 243, 273, 304, 334][m - 1]
      + (if m > 2 && IsLeapYear(y) then 1 else 0)
  }

  /** `date.toordinal()`: day 1 is 0001-01-01. */
  function Ordinal(d: Date): int
    requires ValidDate(d)
  {
    DaysBeforeYear(d.year) + DaysBeforeMonth(d.year, d.month) + d.day
  }

  /** The calendar day after `d` (none after 9999-12-31). */
  function NextDay(d: Date): (e: Date)
    requires ValidDate(d) && d != Date(9999, 12, 31)
    ensures ValidDate(e)
  {
    if d.day < DaysInMonth(d.year, d.month) then Date(d.year, d.month, d.day + 1)
    else if d.month < 12 then Date(d.year, d.month + 1, 1)
    else Date(d.year + 1, 1, 1)
  }

  lemma DivSucc(a: int, k: int)
    requires a >= 0 && k > 0
    ensures (a + 1) / k == a / k + (if (a + 1) % k == 0 then 1 else 0)
  {
    var q, r := a / k, a % k;
    assert a == k * q + r && 0 <= r < k;
    if r == k - 1 {
      assert a + 1 == k * (q + 1);
      DivMultiple(q + 1, k);
    } else {
      DivUnique(a + 1, k, q, r + 1);
    }
  }

  lemma DivMultiple(q: int, k: int)
    requires k > 0
    ensures (k * q) / k == q && (k * q) % k == 0
  {
    DivUnique(k * q, k, q, 0);
  }

  lemma DivUnique(n: int, k: int, q: int, r: int)
    requires k > 0 && 0 <= r < k && n == k * q + r
    ensures n / k == q && n % k == r
  {
    var q' := n / k;
    if q' < q {
      MulAtLeast(k, q - q');
    } else if q < q' {
      MulAtLeast(k, q' - q);
    }
  }

  lemma MulAtLeast(k: int, x: int)
    requires k > 0 && x >= 1
    ensures k * x >= k
  {
  }

  /** A year has 365 days, plus one in a leap year. */
  lemma YearLength(y: int)
    requires 1 <= y
    ensures DaysBeforeYear(y + 1) == DaysBeforeYear(y) + 365 + (if IsLeapYear(y) then 1 else 0)
  {
    var a := y - 1;
    DivSucc(a, 4);
    DivSucc(a, 100);
    DivSucc(a, 400);
    if y % 400 == 0 {
      DivMultiple(y / 400 * 4, 100);
      assert y == 100 * (y / 400 * 4);
      DivMultiple(y / 400 * 100, 4);
      assert y == 4 * (y / 400 * 100);
    } else if y % 100 == 0 {
      DivMultiple(y / 100 * 25, 4);
      assert y == 4 * (y / 100 * 25);
    }
  }

  /** Day numbers count days one by one: the day after `d` has the next
      number. So a difference of day numbers is a number of calendar days. */
  lemma OrdinalCountsDays(d: Date)
    requires ValidDate(d) && d != Date(9999, 12, 31)
    ensures Ordinal(NextDay(d)) == Ordinal(d) + 1
  {
    if d.day == DaysInMonth(d.year, d.month) && d.month == 12 {
      YearLength(d.year);
    }
  }

  // ----- the clock -------------------------------------------------------------

  const MicrosPerDay: int := 86_400_000_000

  /** What `datetime.now()` reads: a day number and the microseconds since
      that day's midnight. The day is at least 91 so that subtracting 90
      days stays within `datetime`'s range. */
  datatype Clock = Clock(day: int, micros: int)

  predicate ValidClock(now: Clock) {
    91 <= now.day && 0 <= now.micros < MicrosPerDay
  }

  /** A point in time, in microseconds since the start of day 0. */
  function Instant(day: int, micros: int): int {
    day * MicrosPerDay + micros
  }

  /** `three_months_ago <= signature_date <= today`, where `today` is the
      clock reading, `three_months_ago` is 90 days earlier at the same time
      of day, and the parsed signature date is at midnight. */
  predicate WithinLastNinetyDays(d: Date, now: Clock)
    requires ValidDate(d)
  {
    var signed := Instant(Ordinal(d), 0);
    Instant(now.day - 90, now.micros) <= signed <= Instant(now.day, now.micros)
  }

  /** In whole days: a date is in the window when it is no later than today
      and later than the day 90 days ago; that day itself counts only when
      the clock reads exactly midnight. */
  lemma WindowInDays(d: Date, now: Clock)
    requires ValidDate(d) && ValidClock(now)
    ensures WithinLastNinetyDays(d, now) <==>
              || (now.day - 90 < Ordinal(d) <= now.day)
              || (Ordinal(d) == now.day - 90 && now.micros == 0)
  {
    var s, t := Ordinal(d), now.day;
    if s > t {
      assert Instant(s, 0) >= Instant(t + 1, 0) > Instant(t, now.micros);
    }
    if s < t - 90 {
      assert Instant(s, 0) <= Instant(t - 91, 0) < Instant(t - 90, now.micros);
    }
  }
}

=== FILE: chars.dfy ===
/** Character classes and small string utilities shared by the pattern
    scanners and the checks: the ASCII reading of `\d` and `\w`, Python's
    whitespace set (`\s` and `str.strip()`), decimal digit strings and their
    values (`int(...)`), zero-padded rendering, and substring containment
    (Python's `in` on strings). */
module Chars {

  datatype Option<T> = None | Some(value: T)

  predicate IsDigit(c: char) {
    '0' <= c <= '9'
  }

  function DigitValue(c: char): (v: nat)
    requires IsDigit(c)
    ensures v < 10
  {
    (c as int) - ('0' as int)
  }

  function DigitChar(v: nat): (c: char)
    requires v < 10
    ensures IsDigit(c) && DigitValue(c) == v
  {
    (('0' as int) + v) as char
  }

  /** The characters for which Python's `str.isspace()` holds; `\s` in a
      `str` pattern and `str.strip()` both use this set. */
  predicate IsSpace(c: char) {
    || c == ' '
    || ('\t' <= c <= '\r')
    || ('\U{1C}' <= c <= '\U{1F}')
    || c == '\U{85}' || c == '\U{A0}' || c == '\U{1680}'
    || ('\U{2000}' <= c <= '\U{200A}')
    || c == '\U{2028}' || c == '\U{2029}' || c == '\U{202F}' || c == '\U{205F}'
    || c == '\U{3000}'
  }

  /** `\w`, restricted to ASCII letters, digits and the underscore. */
  predicate IsWord(c: char) {
    IsDigit(c) || ('a' <= c <= 'z') || ('A' <= c <= 'Z') || c == '_'
  }

  lemma DigitIsNotSpace(c: char)
    requires IsDigit(c)
    ensures !IsSpace(c)
  {
  }

  /** `n` digits start at position `i` of `s`. */
  predicate DigitsAt(s: string, i: nat, n: nat) {
    i + n <= |s| && forall k :: i <= k < i + n ==> IsDigit(s[k])
  }

  /** `n` whitespace characters start at position `i` of `s`. */
  predicate SpacesAt(s: string, i: nat, n: nat) {
    i + n <= |s| && forall k :: i <= k < i + n ==> IsSpace(s[k])
  }

  predicate AllDigits(s: string) {
    DigitsAt(s, 0, |s|)
  }

  /** Length of the longest run of digits starting at `i`. */
  function DigitRun(s: string, i: nat): (n: nat)
    requires i <= |s|
    ensures DigitsAt(s, i, n)
    ensures i + n < |s| ==> !IsDigit(s[i + n])
    decreases |s| - i
  {
    if i < |s| && IsDigit(s[i]) then 1 + DigitRun(s, i + 1) else 0
  }

  /** Length of the longest run of whitespace starting at `i`. */
  function SpaceRun(s: string, i: nat): (n: nat)
    requires i <= |s|
    ensures SpacesAt(s, i, n)
    ensures i + n < |s| ==> !IsSpace(s[i + n])
    decreases |s| - i
  {
    if i < |s| && IsSpace(s[i]) then 1 + SpaceRun(s, i + 1) else 0
  }

  function Pow10(n: nat): (p: nat)
    ensures p >= 1
  {
    if n == 0 then 1 else 10 * Pow10(n - 1)
  }

  /** The value Python's `int()` gives a string of decimal digits. */
  function DecimalValue(s: string): (v: nat)
    requires AllDigits(s)
    ensures v < Pow10(|s|)
  {
    if s == [] then 0
    else DecimalValue(s[..|s| - 1]) * 10 + DigitValue(s[|s| - 1])
  }

  /** `n` written with exactly `width` digits, zero-padded on the left
      (the digits of `n % 10^width`). */
  function Pad(n: nat, width: nat): (r: string)
    ensures |r| == width && AllDigits(r)
  {
    if width == 0 then "" else Pad(n / 10, width - 1) + [DigitChar(n % 10)]
  }

  /** Reading back a padded number gives the number, when it fits. */
  lemma {:induction false} PadValue(n: nat, width: nat)
    requires n < Pow10(width)
    ensures DecimalValue(Pad(n, width)) == n
  {
    if width > 0 {
      var r := Pad(n, width);
      assert r[..|r| - 1] == Pad(n / 10, width - 1);
      assert r[|r| - 1] == DigitChar(n % 10);
      assert n / 10 < Pow10(width - 1);
      PadValue(n / 10, width - 1);
      assert DecimalValue(r) == DecimalValue(Pad(n / 10, width - 1)) * 10 + DigitValue(DigitChar(n % 10));
    }
  }

  /** Padding the value of a digit string to its own length gives it back. */
  lemma {:induction false} ValuePad(s: string)
    requires AllDigits(s)
    ensures Pad(DecimalValue(s), |s|) == s
  {
    if s != [] {
      var front := s[..|s| - 1];
      var v := DecimalValue(s);
      assert v / 10 == DecimalValue(front) && v % 10 == DigitValue(s[|s| - 1]);
      ValuePad(front);
      assert s == front + [s[|s| - 1]];
    }
  }

  /** Python's `t in s` for strings. */
  predicate Contains(s: string, t: string) {
    exists i | 0 <= i <= |s| - |t| :: OccursAt(s, t, i)
  }

  predicate OccursAt(s: string, t: string, i: nat) {
    i + |t| <= |s| && s[i..i + |t|] == t
  }

  function StripLeft(s: string): (r: string)
    ensures |r| <= |s| && r == s[|s| - |r|..]
    ensures forall k :: 0 <= k < |s| - |r| ==> IsSpace(s[k])
    ensures r != [] ==> !IsSpace(r[0])
  {
    if s != [] && IsSpace(s[0]) then StripLeft(s[1..]) else s
  }

  function StripRight(s: string): (r: string)
    ensures |r| <= |s| && r == s[..|r|]
    ensures forall k :: |r| <= k < |s| ==> IsSpace(s[k])
    ensures r != [] ==> !IsSpace(r[|r| - 1])
  {
    if s != [] && IsSpace(s[|s| - 1]) then StripRight(s[..|s| - 1]) else s
  }

  /** Python's `str.strip()` with no argument: the longest slice of `s`
      that neither starts nor ends with whitespace, found by dropping
      whitespace from both ends. */
  function Strip(s: string): (r: string)
    ensures exists i, j :: 0 <= i <= j <= |s| && r == s[i..j]
                           && (forall k :: 0 <= k < i ==> IsSpace(s[k]))
                           && (forall k :: j <= k < |s| ==> IsSpace(s[k]))
    ensures r != [] ==> !IsSpace(r[0]) && !IsSpace(r[|r| - 1])
    ensures r == [] <==> forall k :: 0 <= k < |s| ==> IsSpace(s[k])
  {
    var left := StripLeft(s);
    var r := StripRight(left);
    var i := |s| - |left|;
    assert r == s[i..i + |r|];
    r
  }
}

=== FILE: document.dfy ===
/** The document the checks read, and the findings they report.

    A document is its sequence of pages. The two layout queries the checks
    use, searching a page for a text and reading the text inside a
    rectangle, are taken as given functions of the page: this model does
    not say where text sits on a page, only what the checks do with the
    answers. */
module Document {

  /** A rectangle in page coordinates, corners (x0, y0) and (x1, y1). */
  datatype Rect = Rect(x0: real, y0: real, x1: real, y1: real)

  /** One page as the checks see it:
      - `text`: the page's whole plain text;
      - `width`: the width of the page's rectangle;
      - `search(t)`: the rectangles where the PDF library's search finds
        `t` on the page, in the order it reports them (empty when it finds
        nothing); that search ignores ASCII case, unlike the `in` tests on
        the page text;
      - `clip(r)`: the plain text inside the rectangle `r`. */
  datatype Page = Page(text: string, width: real, search: string -> seq<Rect>, clip: Rect -> string)

  /** One reported defect. Each constructor stands for one message of the
      checks and carries exactly the values the message shows; page numbers
      count from 1. */
  datatype Finding =
    | InconsistentEditionDates(dates: set<string>)
    | InvalidSignatureDateFormat(page: nat, date: string)
    | StaleSignatureDate(page: nat, date: string)
    | PreparerDateMissing(page: nat)
    | PreparerNotFound
    | MissingPages(form: string, missing: seq<nat>)
    | InconsistentANumbers(numbers: set<string>)
    | NoANumber
    | Box3aMarkedYes

  /** The page a finding is about; 0 for the document-wide findings. */
  function PageNumber(f: Finding): nat {
    match f
    case InvalidSignatureDateFormat(p, _) => p
    case StaleSignatureDate(p, _) => p
    case PreparerDateMissing(p) => p
    case _ => 0
  }

  /** The union over all pages of what `f` collects from each page. */
  function Gather(doc: seq<Page>, f: Page -> set<string>): (r: set<string>)
    ensures forall x :: x in r <==> exists p :: 0 <= p < |doc| && x in f(doc[p])
  {
    if doc == [] then {}
    else
      var rest := Gather(doc[1..], f);
      assert forall x :: x in rest <==> exists p :: 1 <= p < |doc| && x in f(doc[p]) by {
        forall x ensures x in rest <==> exists p :: 1 <= p < |doc| && x in f(doc[p]) {
          if x in rest {
            var p :| 0 <= p < |doc[1..]| && x in f(doc[1..][p]);
            assert doc[p + 1] == doc[1..][p];
          }
          if exists p :: 1 <= p < |doc| && x in f(doc[p]) {
            var p :| 1 <= p < |doc| && x in f(doc[p]);
            assert doc[1..][p - 1] == doc[p];
          }
        }
      }
      f(doc[0]) + rest
  }

  /** A value absent from a list occurs in it zero times. */
  lemma NotInCountsZero<T>(s: seq<T>, x: T)
    requires x !in s
    ensures multiset(s)[x] == 0
  {
  }
}

=== FILE: page_sequences.dfy ===
/** The missing-pages check. Each page may carry a stamp "Page n of m"
    (the first match of `Page\s(\d+)\s+of\s+(\d+)` in its text) and a form
    name (the first match of `Form\sI-\d{3,4}\w?`, or "Unknown Form"). The
    stamped pages are grouped by form, in the order the forms are first
    seen; a group's expected page count is the `m` of its first stamped
    page; and every group with page numbers from 1 to that count missing is
    reported with the missing numbers in ascending order. */
module PageSequences {
  import opened Chars
  import opened Patterns
  import opened Document

  const UnknownForm := "Unknown Form"

  // ----- reading a page's stamp -------------------------------------------------

  /** The form a page's text names: the text of its leftmost form-name
      match, taking as many digits and trailing word characters as the
      greedy engine does, or "Unknown Form" when there is none. */
  function FormOf(text: string): (r: string)
    ensures r == UnknownForm <==> Search(FormName, text).None?
    ensures r != UnknownForm ==> exists n: nat, w: nat :: |r| == 7 + n + w && FormNameShape(r, 0, n, w)
    ensures r != UnknownForm ==>
              var i := Search(FormName, text).value;
              exists n: nat, w: nat :: ReadsFormName(text, i, n, w) && r == text[i..i + 7 + n + w]
  {
    match Search(FormName, text)
    case None => UnknownForm
    case Some(i) =>
      var t := FormNameParts(text, i).value;
      FormNameSlice(text, i, t.0, t.1);
      FormNameEngineChoice(text, i);
      assert ReadsFormName(text, i, t.0, t.1);
      text[i..i + 7 + t.0 + t.1]
  }

  /** The pattern fits at `i` with `n` digits and `w` trailing word
      characters, and no fit takes more (digits first, then the optional
      character). */
  ghost predicate ReadsFormName(text: string, i: nat, n: nat, w: nat) {
    && FormNameShape(text, i, n, w)
    && forall n': nat, w': nat :: FormNameShape(text, i, n', w') ==> n' < n || (n' == n && w' <= w)
  }

  lemma FormNameSlice(s: string, i: nat, n: nat, w: nat)
    requires FormNameShape(s, i, n, w)
    ensures var r := s[i..i + 7 + n + w];
            FormNameShape(r, 0, n, w) && r != UnknownForm
  {
    var r := s[i..i + 7 + n + w];
    assert r[0..4] == s[i..i + 4];
    assert r[0] == 'F';
  }

  /** A page stamped "Page 3 of 12" that names no form is counted under
      "Unknown Form". */
  lemma StampWithoutFormName()
    ensures FormOf("Page 3 of 12") == UnknownForm
  {
  }

  /** The page numbers read at position `i`: the pattern matches there with
      runs `a`, `b`, `c`, `d`, the last digit run is not followed by a digit
      (so it is the whole run), and `n`, `m` are the values of the two digit
      runs. */
  ghost predicate ReadsStamp(text: string, i: nat, a: nat, b: nat, c: nat, d: nat, n: nat, m: nat) {
    && PageOfShape(text, i, a, b, c, d)
    && (i + 7 + a + b + c + d < |text| ==> !IsDigit(text[i + 7 + a + b + c + d]))
    && (n, m) == RunValues(text, i, a, b, c, d)
  }

  /** The values (`int()`) of the two digit runs of a match with runs `a`,
      `b`, `c`, `d` at `i`. */
  function RunValues(text: string, i: nat, a: nat, b: nat, c: nat, d: nat): (nat, nat)
    requires PageOfShape(text, i, a, b, c, d)
  {
    var j := i + 7 + a + b + c;
    assert AllDigits(text[i + 5..i + 5 + a]) && AllDigits(text[j..j + d]);
    (DecimalValue(text[i + 5..i + 5 + a]), DecimalValue(text[j..j + d]))
  }

  /** The "Page n of m" stamp of a text as the pair (n, m), read at the
      leftmost match; None when the text has no stamp. */
  function PageLabel(text: string): (r: Option<(nat, nat)>)
    ensures r.None? <==> Search(PageOfTotal, text).None?
    ensures r.Some? ==> exists a: nat, b: nat, c: nat, d: nat ::
              ReadsStamp(text, Search(PageOfTotal, text).value, a, b, c, d, r.value.0, r.value.1)
  {
    match Search(PageOfTotal, text)
    case None => None
    case Some(i) => Some(NumbersAt(text, i))
  }

  /** A stamp reads one way only: whatever runs two readings at the same
      position use, they give the same pair, so `PageLabel`'s pair is the
      values of the whole digit runs. */
  lemma StampUnique(text: string, i: nat, a: nat, b: nat, c: nat, d: nat, n: nat, m: nat,
                    a': nat, b': nat, c': nat, d': nat, n': nat, m': nat)
    requires ReadsStamp(text, i, a, b, c, d, n, m)
    requires ReadsStamp(text, i, a', b', c', d', n', m')
    ensures n == n' && m == m'
  {
    StampRuns(text, i, a, b, c, d, n, m);
    StampRuns(text, i, a', b', c', d', n', m');
  }

  /** The runs of a reading are those of the engine's match. */
  lemma StampRuns(text: string, i: nat, a: nat, b: nat, c: nat, d: nat, n: nat, m: nat)
    requires ReadsStamp(text, i, a, b, c, d, n, m)
    ensures PageOfParts(text, i) == Some((a, b, c, d))
  {
    PageOfRunsOfShape(text, i, a, b, c, d);
    DigitRunMaximal(text, i + 7 + a + b + c, d);
  }

  /** The two numbers of the match the engine makes at `i`. */
  function NumbersAt(text: string, i: nat): (r: (nat, nat))
    requires MatchesAt(PageOfTotal, text, i)
    ensures exists a: nat, b: nat, c: nat, d: nat :: ReadsStamp(text, i, a, b, c, d, r.0, r.1)
  {
    var t := PageOfParts(text, i).value;
    EngineReadsStamp(text, i);
    RunValues(text, i, t.0, t.1, t.2, t.3)
  }

  /** The engine's match at `i` is a reading of the stamp. */
  lemma EngineReadsStamp(text: string, i: nat)
    requires PageOfParts(text, i).Some?
    ensures var t := PageOfParts(text, i).value;
            && PageOfShape(text, i, t.0, t.1, t.2, t.3)
            && var r := RunValues(text, i, t.0, t.1, t.2, t.3);
               ReadsStamp(text, i, t.0, t.1, t.2, t.3, r.0, r.1)
  {
    var t := PageOfParts(text, i).value;
    assert PageOfShape(text, i, t.0, t.1, t.2, t.3);
    LastRunWhole(text, i);
  }

  /** The engine's second number takes the whole digit run. */
  lemma LastRunWhole(text: string, i: nat)
    requires PageOfParts(text, i).Some?
    ensures var t := PageOfParts(text, i).value;
            var j := i + 7 + t.0 + t.1 + t.2 + t.3;
            j < |text| ==> !IsDigit(text[j])
  {
    var t := PageOfParts(text, i).value;
    PageOfRunsOfShape(text, i, t.0, t.1, t.2, t.3);
  }

  /** What one page contributes: its form, its page number and its page
      count. */
  datatype Stamp = Stamp(form: string, current: nat, total: nat)

  function StampOf(page: Page): Option<Stamp> {
    match PageLabel(page.text)
    case None => None
    case Some(numbers) => Some(Stamp(FormOf(page.text), numbers.0, numbers.1))
  }

  /** The stamps of all pages, in page order. */
  function StampsOf(doc: seq<Page>): seq<Option<Stamp>> {
    seq(|doc|, p requires 0 <= p < |doc| => StampOf(doc[p]))
  }

  // ----- grouping by form -----------------------------------------------------------

  /** The pages seen so far for one form, and its expected page count. */
  datatype FormPages = FormPages(form: string, total: nat, pages: set<nat>)

  predicate HasForm(gs: seq<FormPages>, form: string) {
    exists i | 0 <= i < |gs| :: gs[i].form == form
  }

  /** Add one stamp: to its form's group if there is one (keeping that
      group's page count), else as a new group at the end. */
  function Record(gs: seq<FormPages>, st: Stamp): seq<FormPages> {
    if HasForm(gs, st.form) then
      seq(|gs|, i requires 0 <= i < |gs| =>
        if gs[i].form == st.form then gs[i].(pages := gs[i].pages + {st.current}) else gs[i])
    else gs + [FormPages(st.form, st.total, {st.current})]
  }

  /** The groups after reading every page in order. */
  function Group(stamps: seq<Option<Stamp>>): seq<FormPages> {
    if stamps == [] then []
    else
      var gs := Group(stamps[..|stamps| - 1]);
      match stamps[|stamps| - 1]
      case None => gs
      case Some(st) => Record(gs, st)
  }

  // ----- what the grouping should be ---------------------------------------------

  /** Page `p` (counting from 0) is stamped and names `form`. */
  ghost predicate Stamped(stamps: seq<Option<Stamp>>, p: int, form: string) {
    0 <= p < |stamps| && stamps[p].Some? && stamps[p].value.form == form
  }

  /** Page `p` is the first page stamped with `form`. */
  ghost predicate FirstStamped(stamps: seq<Option<Stamp>>, p: int, form: string) {
    Stamped(stamps, p, form) && forall q :: 0 <= q < p ==> !Stamped(stamps, q, form)
  }

  /** The page numbers the pages stamped with `form` declare. */
  ghost function Declared(stamps: seq<Option<Stamp>>, form: string): set<nat> {
    set p | 0 <= p < |stamps| && Stamped(stamps, p, form) :: stamps[p].value.current
  }

  ghost predicate DistinctForms(gs: seq<FormPages>) {
    forall i, j :: 0 <= i < j < |gs| ==> gs[i].form != gs[j].form
  }

  /** Each group's page count is the one its form's first stamped page gives. */
  ghost predicate TotalsFromFirst(stamps: seq<Option<Stamp>>, gs: seq<FormPages>) {
    forall i :: 0 <= i < |gs| ==> TotalFromFirst(stamps, gs[i])
  }

  ghost predicate TotalFromFirst(stamps: seq<Option<Stamp>>, g: FormPages) {
    exists p :: FirstStamped(stamps, p, g.form) && stamps[p].value.total == g.total
  }

  ghost predicate PagesDeclared(stamps: seq<Option<Stamp>>, gs: seq<FormPages>) {
    forall i :: 0 <= i < |gs| ==> gs[i].pages == Declared(stamps, gs[i].form)
  }

  ghost predicate AllStampsGrouped(stamps: seq<Option<Stamp>>, gs: seq<FormPages>) {
    forall p :: 0 <= p < |stamps| && stamps[p].Some? ==> HasForm(gs, stamps[p].value.form)
  }

  /** Groups appear in the order their forms are first stamped. */
  ghost predicate FirstSeenOrder(stamps: seq<Option<Stamp>>, gs: seq<FormPages>) {
    forall i, j, p, q :: 0 <= i < j < |gs| && FirstStamped(stamps, p, gs[i].form) && FirstStamped(stamps, q, gs[j].form)
                         ==> p < q
  }

  /** `gs` is the grouping of the document's stamps: one group per stamped
      form, in first-seen order, each with the first stamp's page count and
      every page number declared for the form. */
  ghost predicate GroupsOf(stamps: seq<Option<Stamp>>, gs: seq<FormPages>) {
    && DistinctForms(gs)
    && TotalsFromFirst(stamps, gs)
    && PagesDeclared(stamps, gs)
    && AllStampsGrouped(stamps, gs)
    && FirstSeenOrder(stamps, gs)
  }

  /** Reading the pages in order builds exactly that grouping. */
  lemma {:induction false} GroupCorrect(stamps: seq<Option<Stamp>>)
    ensures GroupsOf(stamps, Group(stamps))
  {
    if stamps != [] {
      var front := stamps[..|stamps| - 1];
      var gs := Group(front);
      GroupCorrect(front);
      match stamps[|stamps| - 1]
      case None =>
        StepUnstamped(stamps, gs);
      case Some(st) =>
        if HasForm(gs, st.form) {
          StepKnownForm(stamps, gs, st);
        } else {
          StepNewForm(stamps, gs, st);
        }
    }
  }

  // The step lemmas below relate a document's stamps to those of the
  // document without its last page ("front"); each proves one invariant.

  /** A first stamp before the last page is first in the front too, and
      back. */
  lemma FirstStampedFront(stamps: seq<Option<Stamp>>, p: int, form: string)
    requires stamps != []
    ensures FirstStamped(stamps[..|stamps| - 1], p, form) <==> FirstStamped(stamps, p, form) && p < |stamps| - 1
  {
    var front := stamps[..|stamps| - 1];
    if 0 <= p < |front| {
      forall q | 0 <= q <= p ensures Stamped(front, q, form) <==> Stamped(stamps, q, form) {
        assert front[q] == stamps[q];
      }
    }
  }

  lemma FirstStampedUnique(stamps: seq<Option<Stamp>>, form: string, p: int, q: int)
    requires FirstStamped(stamps, p, form) && FirstStamped(stamps, q, form)
    ensures p == q
  {
  }

  /** A form that has a group for the front was first stamped in the front. */
  lemma FirstStampedInFront(stamps: seq<Option<Stamp>>, gs: seq<FormPages>, i: nat, p: int)
    requires stamps != [] && TotalsFromFirst(stamps[..|stamps| - 1], gs)
    requires i < |gs| && FirstStamped(stamps, p, gs[i].form)
    ensures p < |stamps| - 1 && FirstStamped(stamps[..|stamps| - 1], p, gs[i].form)
  {
    var front := stamps[..|stamps| - 1];
    assert TotalFromFirst(front, gs[i]);
    var p' :| FirstStamped(front, p', gs[i].form) && front[p'].value.total == gs[i].total;
    FirstStampedFront(stamps, p', gs[i].form);
    FirstStampedUnique(stamps, gs[i].form, p, p');
    FirstStampedFront(stamps, p, gs[i].form);
  }

  lemma DeclaredStep(stamps: seq<Option<Stamp>>, form: string)
    requires stamps != []
    ensures Declared(stamps, form) ==
              Declared(stamps[..|stamps| - 1], form)
                + (if Stamped(stamps, |stamps| - 1, form) then {stamps[|stamps| - 1].value.current} else {})
  {
    var front := stamps[..|stamps| - 1];
    assert forall p :: 0 <= p < |front| ==> front[p] == stamps[p];
  }

  /** A group whose form and total are those of a group for the front
      keeps its total from the form's first stamp. */
  lemma TotalKept(stamps: seq<Option<Stamp>>, g: FormPages, h: FormPages)
    requires stamps != [] && TotalFromFirst(stamps[..|stamps| - 1], g)
    requires h.form == g.form && h.total == g.total
    ensures TotalFromFirst(stamps, h)
  {
    var front := stamps[..|stamps| - 1];
    var p :| FirstStamped(front, p, g.form) && front[p].value.total == g.total;
    FirstStampedFront(stamps, p, g.form);
    assert stamps[p] == front[p];
  }

  /** The same for every group of the front. */
  lemma TotalsKept(stamps: seq<Option<Stamp>>, gs: seq<FormPages>, r: seq<FormPages>)
    requires stamps != [] && TotalsFromFirst(stamps[..|stamps| - 1], gs)
    requires |gs| <= |r|
    requires forall i :: 0 <= i < |gs| ==> r[i].form == gs[i].form && r[i].total == gs[i].total
    ensures forall i :: 0 <= i < |gs| ==> TotalFromFirst(stamps, r[i])
  {
    forall i | 0 <= i < |gs| ensures TotalFromFirst(stamps, r[i]) {
      TotalKept(stamps, gs[i], r[i]);
    }
  }

  /** Groups whose forms are those of the front's groups keep the
      first-seen order among themselves. */
  lemma OrderKept(stamps: seq<Option<Stamp>>, gs: seq<FormPages>, r: seq<FormPages>)
    requires stamps != []
    requires TotalsFromFirst(stamps[..|stamps| - 1], gs) && FirstSeenOrder(stamps[..|stamps| - 1], gs)
    requires |gs| <= |r|
    requires forall i :: 0 <= i < |gs| ==> r[i].form == gs[i].form
    ensures forall i, j, p, q :: 0 <= i < j < |gs| && FirstStamped(stamps, p, r[i].form) && FirstStamped(stamps, q, r[j].form)
              ==> p < q
  {
    forall i, j, p, q | 0 <= i < j < |gs| && FirstStamped(stamps, p, r[i].form) && FirstStamped(stamps, q, r[j].form)
      ensures p < q
    {
      FirstStampedInFront(stamps, gs, i, p);
      FirstStampedInFront(stamps, gs, j, q);
    }
  }

  lemma StepUnstamped(stamps: seq<Option<Stamp>>, gs: seq<FormPages>)
    requires stamps != [] && stamps[|stamps| - 1].None?
    requires GroupsOf(stamps[..|stamps| - 1], gs)
    ensures GroupsOf(stamps, gs)
  {
    var front := stamps[..|stamps| - 1];
    TotalsKept(stamps, gs, gs);
    OrderKept(stamps, gs, gs);
    forall i | 0 <= i < |gs| ensures gs[i].pages == Declared(stamps, gs[i].form) {
      DeclaredStep(stamps, gs[i].form);
    }
    forall p | 0 <= p < |stamps| && stamps[p].Some? ensures HasForm(gs, stamps[p].value.form) {
      assert front[p] == stamps[p];
    }
  }

  lemma StepKnownForm(stamps: seq<Option<Stamp>>, gs: seq<FormPages>, st: Stamp)
    requires stamps != [] && stamps[|stamps| - 1] == Some(st)
    requires GroupsOf(stamps[..|stamps| - 1], gs)
    requires HasForm(gs, st.form)
    ensures GroupsOf(stamps, Record(gs, st))
  {
    var r := Record(gs, st);
    TotalsKept(stamps, gs, r);
    OrderKept(stamps, gs, r);
    KnownFormPages(stamps, gs, st);
    KnownFormGrouped(stamps, gs, st);
  }

  lemma KnownFormPages(stamps: seq<Option<Stamp>>, gs: seq<FormPages>, st: Stamp)
    requires stamps != [] && stamps[|stamps| - 1] == Some(st)
    requires PagesDeclared(stamps[..|stamps| - 1], gs)
    requires HasForm(gs, st.form)
    ensures PagesDeclared(stamps, Record(gs, st))
  {
    var r := Record(gs, st);
    forall i | 0 <= i < |r| ensures r[i].pages == Declared(stamps, r[i].form) {
      DeclaredStep(stamps, gs[i].form);
    }
  }

  lemma KnownFormGrouped(stamps: seq<Option<Stamp>>, gs: seq<FormPages>, st: Stamp)
    requires stamps != [] && stamps[|stamps| - 1] == Some(st)
    requires AllStampsGrouped(stamps[..|stamps| - 1], gs)
    requires HasForm(gs, st.form)
    ensures AllStampsGrouped(stamps, Record(gs, st))
  {
    var front := stamps[..|stamps| - 1];
    var r := Record(gs, st);
    forall p | 0 <= p < |stamps| && stamps[p].Some? ensures HasForm(r, stamps[p].value.form) {
      var form := stamps[p].value.form;
      if p < |front| {
        assert front[p] == stamps[p];
      }
      var i :| 0 <= i < |gs| && gs[i].form == form;
      assert r[i].form == form;
    }
  }

  lemma StepNewForm(stamps: seq<Option<Stamp>>, gs: seq<FormPages>, st: Stamp)
    requires stamps != [] && stamps[|stamps| - 1] == Some(st)
    requires GroupsOf(stamps[..|stamps| - 1], gs)
    requires !HasForm(gs, st.form)
    ensures GroupsOf(stamps, Record(gs, st))
  {
    var r := Record(gs, st);
    NewFormIsFirst(stamps, gs, st);
    TotalsKept(stamps, gs, r);
    OrderKept(stamps, gs, r);
    NewFormPages(stamps, gs, st);
    NewFormGrouped(stamps, gs, st);
    NewFormLast(stamps, gs, st);
  }

  /** A form without a group for the front is first stamped on the last
      page, and not before. */
  lemma NewFormIsFirst(stamps: seq<Option<Stamp>>, gs: seq<FormPages>, st: Stamp)
    requires stamps != [] && stamps[|stamps| - 1] == Some(st)
    requires AllStampsGrouped(stamps[..|stamps| - 1], gs)
    requires !HasForm(gs, st.form)
    ensures FirstStamped(stamps, |stamps| - 1, st.form)
    ensures Declared(stamps[..|stamps| - 1], st.form) == {}
  {
    var front := stamps[..|stamps| - 1];
    forall q | 0 <= q < |front| && stamps[q].Some? ensures stamps[q].value.form != st.form {
      assert front[q] == stamps[q];
      assert HasForm(gs, front[q].value.form);
    }
    forall q | 0 <= q < |front| && front[q].Some? ensures front[q].value.form != st.form {
      assert front[q] == stamps[q];
    }
  }

  lemma NewFormPages(stamps: seq<Option<Stamp>>, gs: seq<FormPages>, st: Stamp)
    requires stamps != [] && stamps[|stamps| - 1] == Some(st)
    requires PagesDeclared(stamps[..|stamps| - 1], gs)
    requires !HasForm(gs, st.form)
    requires Declared(stamps[..|stamps| - 1], st.form) == {}
    ensures PagesDeclared(stamps, Record(gs, st))
  {
    var r := Record(gs, st);
    forall i | 0 <= i < |r| ensures r[i].pages == Declared(stamps, r[i].form) {
      DeclaredStep(stamps, r[i].form);
    }
  }

  lemma NewFormGrouped(stamps: seq<Option<Stamp>>, gs: seq<FormPages>, st: Stamp)
    requires stamps != [] && stamps[|stamps| - 1] == Some(st)
    requires AllStampsGrouped(stamps[..|stamps| - 1], gs)
    requires !HasForm(gs, st.form)
    ensures AllStampsGrouped(stamps, Record(gs, st))
  {
    var front := stamps[..|stamps| - 1];
    var r := Record(gs, st);
    forall p | 0 <= p < |stamps| && stamps[p].Some? ensures HasForm(r, stamps[p].value.form) {
      if p < |front| {
        assert front[p] == stamps[p];
        var i :| 0 <= i < |gs| && gs[i].form == stamps[p].value.form;
        assert r[i] == gs[i];
      } else {
        assert r[|gs|].form == st.form;
      }
    }
  }

  /** The new group: distinct from the others, with its total from the
      last page, and last in first-seen order. */
  lemma NewFormLast(stamps: seq<Option<Stamp>>, gs: seq<FormPages>, st: Stamp)
    requires stamps != [] && stamps[|stamps| - 1] == Some(st)
    requires DistinctForms(gs) && TotalsFromFirst(stamps[..|stamps| - 1], gs)
    requires !HasForm(gs, st.form)
    requires FirstStamped(stamps, |stamps| - 1, st.form)
    ensures var r := Record(gs, st);
            && DistinctForms(r)
            && TotalFromFirst(stamps, r[|gs|])
            && forall i, p, q :: 0 <= i < |gs| && FirstStamped(stamps, p, r[i].form) && FirstStamped(stamps, q, r[|gs|].form)
                 ==> p < q
  {
    var r := Record(gs, st);
    assert r[|gs|] == FormPages(st.form, st.total, {st.current});
    forall i, p, q | 0 <= i < |gs| && FirstStamped(stamps, p, r[i].form) && FirstStamped(stamps, q, r[|gs|].form)
      ensures p < q
    {
      assert r[i] == gs[i];
      FirstStampedInFront(stamps, gs, i, p);
      FirstStampedUnique(stamps, st.form, q, |stamps| - 1);
    }
  }

  // ----- reporting ----------------------------------------------------------------

  /** The numbers from 1 to `n` not in `pages`, ascending: Python's
      `sorted(set(range(1, n + 1)) - pages)`. */
  function MissingUpTo(n: nat, pages: set<nat>): (r: seq<nat>)
    ensures forall x: nat :: x in r <==> 1 <= x <= n && x !in pages
    ensures forall i, j :: 0 <= i < j < |r| ==> r[i] < r[j]
    ensures forall i :: 0 <= i < |r| ==> 1 <= r[i] <= n
  {
    if n == 0 then [] else MissingUpTo(n - 1, pages) + (if n in pages then [] else [n])
  }

  /** The finding for one group, if any of its pages are missing. */
  function GroupFinding(g: FormPages): seq<Finding> {
    var missing := MissingUpTo(g.total, g.pages);
    if missing == [] then [] else [MissingPages(g.form, missing)]
  }

  /** One finding per group with missing pages, in group order. */
  function Report(gs: seq<FormPages>): (r: seq<Finding>)
    ensures forall f :: f in r ==> f.MissingPages? && f.missing != []
  {
    if gs == [] then [] else GroupFinding(gs[0]) + Report(gs[1..])
  }

  /** `f` is the finding of group `i`. */
  ghost predicate FindingOf(gs: seq<FormPages>, i: int, f: Finding) {
    0 <= i < |gs| && GroupFinding(gs[i]) == [f]
  }

  lemma FindingOfTail(gs: seq<FormPages>, i: int, f: Finding)
    requires gs != [] && FindingOf(gs[1..], i, f)
    ensures FindingOf(gs, i + 1, f)
  {
    assert gs[1..][i] == gs[i + 1];
  }

  /** Past the first group's finding, the report is the rest's report. */
  lemma ReportShift(gs: seq<FormPages>, k: nat)
    requires gs != [] && |GroupFinding(gs[0])| <= k < |Report(gs)|
    ensures k - |GroupFinding(gs[0])| < |Report(gs[1..])|
    ensures Report(gs)[k] == Report(gs[1..])[k - |GroupFinding(gs[0])|]
  {
  }

  /** Each reported finding is the finding of some group. */
  lemma {:induction false} ReportFromGroup(gs: seq<FormPages>, k: nat)
    requires k < |Report(gs)|
    ensures exists i :: FindingOf(gs, i, Report(gs)[k])
  {
    var head := GroupFinding(gs[0]);
    if k < |head| {
      assert FindingOf(gs, 0, Report(gs)[k]);
    } else {
      ReportShift(gs, k);
      ReportFromGroup(gs[1..], k - |head|);
      var i :| FindingOf(gs[1..], i, Report(gs[1..])[k - |head|]);
      FindingOfTail(gs, i, Report(gs)[k]);
    }
  }

  /** Every group with missing pages is reported. */
  lemma {:induction false} GroupReported(gs: seq<FormPages>, i: nat)
    requires i < |gs| && GroupFinding(gs[i]) != []
    ensures GroupFinding(gs[i])[0] in Report(gs)
  {
    if i > 0 {
      GroupReported(gs[1..], i - 1);
      assert gs[1..][i - 1] == gs[i];
    }
  }

  /** A finding past the first group's comes from a later group. */
  lemma AfterFirstGroup(gs: seq<FormPages>, k: nat)
    requires gs != [] && |GroupFinding(gs[0])| <= k < |Report(gs)|
    ensures exists j :: 0 < j && FindingOf(gs, j, Report(gs)[k])
  {
    ReportShift(gs, k);
    ReportFromGroup(gs[1..], k - |GroupFinding(gs[0])|);
    var j :| FindingOf(gs[1..], j, Report(gs[1..])[k - |GroupFinding(gs[0])|]);
    FindingOfTail(gs, j, Report(gs)[k]);
  }

  /** Findings appear in group order: the groups behind two findings come in
      the same order as the findings. */
  lemma {:induction false} ReportInGroupOrder(gs: seq<FormPages>, a: nat, b: nat)
    requires a < b < |Report(gs)|
    ensures exists i, j :: i < j && FindingOf(gs, i, Report(gs)[a]) && FindingOf(gs, j, Report(gs)[b])
  {
    var n := |GroupFinding(gs[0])|;
    if a < n {
      assert FindingOf(gs, 0, Report(gs)[a]);
      AfterFirstGroup(gs, b);
    } else {
      ReportShift(gs, a);
      ReportShift(gs, b);
      ReportInGroupOrder(gs[1..], a - n, b - n);
      var i, j :| i < j && FindingOf(gs[1..], i, Report(gs[1..])[a - n]) && FindingOf(gs[1..], j, Report(gs[1..])[b - n]);
      FindingOfTail(gs, i, Report(gs)[a]);
      FindingOfTail(gs, j, Report(gs)[b]);
    }
  }

  /** The missing-pages check. */
  function MissingPageNumbers(doc: seq<Page>): (r: seq<Finding>)
    ensures forall f :: f in r ==> f.MissingPages? && f.missing != []
  {
    Report(Group(StampsOf(doc)))
  }

  /** A form is missing page `x` when `x` is between 1 and the page count its
      first stamped page gives, and no page stamped with the form declares
      it. */
  ghost predicate MissingFrom(stamps: seq<Option<Stamp>>, form: string, x: nat) {
    exists p :: FirstStamped(stamps, p, form) && 1 <= x <= stamps[p].value.total && x !in Declared(stamps, form)
  }

  /** A group of a correct grouping lists exactly the numbers its form is
      missing. */
  lemma GroupMissing(stamps: seq<Option<Stamp>>, gs: seq<FormPages>, i: nat, x: nat)
    requires i < |gs| && TotalsFromFirst(stamps, gs) && PagesDeclared(stamps, gs)
    ensures x in MissingUpTo(gs[i].total, gs[i].pages) <==> MissingFrom(stamps, gs[i].form, x)
  {
    assert TotalFromFirst(stamps, gs[i]);
    var p :| FirstStamped(stamps, p, gs[i].form) && stamps[p].value.total == gs[i].total;
    if MissingFrom(stamps, gs[i].form, x) {
      var p' :| FirstStamped(stamps, p', gs[i].form) && 1 <= x <= stamps[p'].value.total
                && x !in Declared(stamps, gs[i].form);
      FirstStampedUnique(stamps, gs[i].form, p, p');
    }
  }

  /** For any stamps: every finding is for a stamped form and lists, in
      ascending order, exactly the numbers missing from it. */
  lemma StampFindingsMissing(stamps: seq<Option<Stamp>>, k: nat)
    requires k < |Report(Group(stamps))|
    ensures var f := Report(Group(stamps))[k];
            && (exists p :: FirstStamped(stamps, p, f.form))
            && (forall i, j :: 0 <= i < j < |f.missing| ==> f.missing[i] < f.missing[j])
            && (forall x: nat :: x in f.missing <==> MissingFrom(stamps, f.form, x))
  {
    var gs := Group(stamps);
    var f := Report(gs)[k];
    GroupCorrect(stamps);
    ReportFromGroup(gs, k);
    var i :| FindingOf(gs, i, f);
    assert f in GroupFinding(gs[i]);
    assert TotalsFromFirst(stamps, gs) && PagesDeclared(stamps, gs);
    assert TotalFromFirst(stamps, gs[i]);
    forall x: nat ensures x in f.missing <==> MissingFrom(stamps, f.form, x) {
      GroupMissing(stamps, gs, i, x);
    }
  }

  /** For any stamps: every stamped form missing a page number is
      reported. */
  lemma StampMissingReported(stamps: seq<Option<Stamp>>, form: string, x: nat)
    requires MissingFrom(stamps, form, x)
    ensures exists f :: f in Report(Group(stamps)) && f.form == form
  {
    var gs := Group(stamps);
    GroupCorrect(stamps);
    var p :| FirstStamped(stamps, p, form);
    assert AllStampsGrouped(stamps, gs) && TotalsFromFirst(stamps, gs) && PagesDeclared(stamps, gs);
    assert HasForm(gs, stamps[p].value.form);
    var i :| 0 <= i < |gs| && gs[i].form == form;
    GroupMissing(stamps, gs, i, x);
    assert x in MissingUpTo(gs[i].total, gs[i].pages);
    GroupReported(gs, i);
  }

  /** For any stamps: findings come in the order their forms are first
      stamped. */
  lemma StampFindingsOrdered(stamps: seq<Option<Stamp>>, a: nat, b: nat, p: int, q: int)
    requires a < b < |Report(Group(stamps))|
    requires FirstStamped(stamps, p, Report(Group(stamps))[a].form)
    requires FirstStamped(stamps, q, Report(Group(stamps))[b].form)
    ensures p < q
  {
    var gs := Group(stamps);
    var r := Report(gs);
    GroupCorrect(stamps);
    ReportInGroupOrder(gs, a, b);
    var i, j :| i < j && FindingOf(gs, i, r[a]) && FindingOf(gs, j, r[b]);
    assert r[a] in GroupFinding(gs[i]) && r[b] in GroupFinding(gs[j]);
    assert FirstSeenOrder(stamps, gs);
  }

  /** Every finding is for a stamped form and lists, in ascending order,
      exactly the numbers missing from it. */
  lemma FindingsAreMissing(doc: seq<Page>, k: nat)
    requires k < |MissingPageNumbers(doc)|
    ensures var f := MissingPageNumbers(doc)[k];
            var stamps := StampsOf(doc);
            && (exists p :: FirstStamped(stamps, p, f.form))
            && (forall i, j :: 0 <= i < j < |f.missing| ==> f.missing[i] < f.missing[j])
            && (forall x: nat :: x in f.missing <==> MissingFrom(stamps, f.form, x))
  {
    StampFindingsMissing(StampsOf(doc), k);
  }

  /** Every stamped form missing a page number is reported. */
  lemma MissingAreReported(doc: seq<Page>, form: string, x: nat)
    requires MissingFrom(StampsOf(doc), form, x)
    ensures exists f :: f in MissingPageNumbers(doc) && f.form == form
  {
    StampMissingReported(StampsOf(doc), form, x);
  }

  /** Findings come in the order their forms are first stamped, so no form
      is reported twice. */
  lemma ReportedInFirstSeenOrder(doc: seq<Page>, a: nat, b: nat, p: int, q: int)
    requires a < b < |MissingPageNumbers(doc)|
    requires FirstStamped(StampsOf(doc), p, MissingPageNumbers(doc)[a].form)
    requires FirstStamped(StampsOf(doc), q, MissingPageNumbers(doc)[b].form)
    ensures p < q
  {
    StampFindingsOrdered(StampsOf(doc), a, b, p, q);
  }

  /** A form whose stamps declare every page from 1 to its count is never
      reported. */
  lemma CompleteFormNotReported(doc: seq<Page>, form: string, k: nat)
    requires forall x: nat :: !MissingFrom(StampsOf(doc), form, x)
    requires k < |MissingPageNumbers(doc)|
    ensures MissingPageNumbers(doc)[k].form != form
  {
    var f := MissingPageNumbers(doc)[k];
    FindingsAreMissing(doc, k);
    assert f.missing[0] in f.missing;
  }
}

=== FILE: patterns.dfy ===
/** The five regular expressions the checks use, as a leftmost, greedy
    backtracking engine (Python's `re`) would match them.

    For each pattern a declarative `...Shape` predicate says which choices of
    quantifier counts make the pattern match at a position; the matching
    function picks the choice a backtracking engine tries first (greedy
    quantifiers try their largest count first), and its contract proves
    that this is the lexicographically greatest valid choice. `MatchStarts`
    then models `re.findall` (leftmost, non-overlapping, scanning on after
    each match) and `Search` models `re.search` (leftmost match). */
module Patterns {
  import opened Chars
  import opened Scanning

  datatype Pattern =
    | StrictDate   // \d{2}/\d{2}/\d{4}
    | LooseDate    // \d{1,2}/\d{1,2}/\d{2,4}
    | ANumber      // A\d{9}
    | FormName     // Form\sI-\d{3,4}\w?
    | PageOfTotal  // Page\s(\d+)\s+of\s+(\d+)

  // ----- \d{2}/\d{2}/\d{4} -----------------------------------------------

  predicate StrictDateAt(s: string, i: nat) {
    && i + 10 <= |s|
    && DigitsAt(s, i, 2) && s[i + 2] == '/'
    && DigitsAt(s, i + 3, 2) && s[i + 5] == '/'
    && DigitsAt(s, i + 6, 4)
  }

  // ----- A\d{9} ------------------------------------------------------------

  predicate ANumberAt(s: string, i: nat) {
    i + 10 <= |s| && s[i] == 'A' && DigitsAt(s, i + 1, 9)
  }

  // ----- \d{1,2}/\d{1,2}/\d{2,4} ------------------------------------------

  /** The pattern matches at `i` taking `m` month digits, `d` day digits and
      `y` year digits. */
  predicate LooseDateShape(s: string, i: nat, m: nat, d: nat, y: nat) {
    && 1 <= m <= 2 && 1 <= d <= 2 && 2 <= y <= 4
    && i + m + d + y + 2 <= |s|
    && DigitsAt(s, i, m) && s[i + m] == '/'
    && DigitsAt(s, i + m + 1, d) && s[i + m + 1 + d] == '/'
    && DigitsAt(s, i + m + d + 2, y)
  }

  /** `\d{1,2}/`: the digit count the engine settles on (two tried first), or
      0 when neither count is followed by a slash. */
  function SlashField(s: string, i: nat): (m: nat)
    ensures m <= 2
    ensures m > 0 ==> DigitsAt(s, i, m) && i + m < |s| && s[i + m] == '/'
    ensures forall m' :: 1 <= m' <= 2 && DigitsAt(s, i, m') && i + m' < |s| && s[i + m'] == '/' ==> m' == m
  {
    if DigitsAt(s, i, 2) && i + 2 < |s| && s[i + 2] == '/' then 2
    else if DigitsAt(s, i, 1) && i + 1 < |s| && s[i + 1] == '/' then 1
    else 0
  }

  /** `\d{2,4}` at the end of the pattern: the largest count available. */
  function YearField(s: string, i: nat): (y: nat)
    ensures y == 0 || (2 <= y <= 4 && DigitsAt(s, i, y))
    ensures forall y' :: 2 <= y' <= 4 && DigitsAt(s, i, y') ==> y' <= y
  {
    if DigitsAt(s, i, 4) then 4
    else if DigitsAt(s, i, 3) then 3
    else if DigitsAt(s, i, 2) then 2
    else 0
  }

  /** The (month, day, year) digit counts of the engine's match at `i`: the
      month and day counts are forced, the year count is the largest. */
  function LooseDateParts(s: string, i: nat): (r: Option<(nat, nat, nat)>)
    ensures r.Some? ==> LooseDateShape(s, i, r.value.0, r.value.1, r.value.2)
  {
    var m := SlashField(s, i);
    if m == 0 then None
    else
      var d := SlashField(s, i + m + 1);
      if d == 0 then None
      else
        var y := YearField(s, i + m + d + 2);
        if y == 0 then None else Some((m, d, y))
  }

  /** The engine's choice is the one backtracking tries first: any valid
      (month, day, year) counts share its month and day counts and take no
      more year digits, and it finds a match whenever one exists. */
  lemma LooseDateEngineChoice(s: string, i: nat)
    ensures LooseDateParts(s, i).Some? ==>
              forall m: nat, d: nat, y: nat :: LooseDateShape(s, i, m, d, y) ==>
                var t := LooseDateParts(s, i).value;
                m == t.0 && d == t.1 && y <= t.2
    ensures LooseDateParts(s, i).None? ==>
              forall m: nat, d: nat, y: nat :: !LooseDateShape(s, i, m, d, y)
  {
  }

  // ----- Form\sI-\d{3,4}\w? ----------------------------------------------

  /** The pattern matches at `i` with `n` digits and `w` (0 or 1) trailing
      word characters. */
  predicate FormNameShape(s: string, i: nat, n: nat, w: nat) {
    && 3 <= n <= 4 && w <= 1
    && i + 7 + n + w <= |s|
    && s[i..i + 4] == "Form" && IsSpace(s[i + 4]) && s[i + 5] == 'I' && s[i + 6] == '-'
    && DigitsAt(s, i + 7, n)
    && (w == 1 ==> IsWord(s[i + 7 + n]))
  }

  /** The (digits, trailing word characters) counts of the engine's match at
      `i`: the lexicographically greatest valid pair. */
  function FormNameParts(s: string, i: nat): (r: Option<(nat, nat)>)
    ensures r.Some? ==> FormNameShape(s, i, r.value.0, r.value.1)
  {
    if !(i + 10 <= |s| && s[i..i + 4] == "Form" && IsSpace(s[i + 4])
         && s[i + 5] == 'I' && s[i + 6] == '-' && DigitsAt(s, i + 7, 3))
    then None
    else
      var n := if DigitsAt(s, i + 7, 4) then 4 else 3;
      var w := if i + 7 + n < |s| && IsWord(s[i + 7 + n]) then 1 else 0;
      Some((n, w))
  }

  /** The engine's choice is the lexicographically greatest valid
      (digits, trailing word characters) pair, and it finds a match whenever
      one exists. */
  lemma FormNameEngineChoice(s: string, i: nat)
    ensures FormNameParts(s, i).Some? ==>
              forall n: nat, w: nat :: FormNameShape(s, i, n, w) ==>
                var t := FormNameParts(s, i).value;
                n < t.0 || (n == t.0 && w <= t.1)
    ensures FormNameParts(s, i).None? ==> forall n: nat, w: nat :: !FormNameShape(s, i, n, w)
  {
  }

  // ----- Page\s(\d+)\s+of\s+(\d+) ----------------------------------------

  /** The pattern matches at `i` with runs of `a` digits, `b` spaces, `c`
      spaces and `d` digits. */
  predicate PageOfShape(s: string, i: nat, a: nat, b: nat, c: nat, d: nat) {
    && a >= 1 && b >= 1 && c >= 1 && d >= 1
    && i + 7 + a + b + c + d <= |s|
    && s[i..i + 4] == "Page" && IsSpace(s[i + 4])
    && DigitsAt(s, i + 5, a)
    && SpacesAt(s, i + 5 + a, b)
    && s[i + 5 + a + b] == 'o' && s[i + 6 + a + b] == 'f'
    && SpacesAt(s, i + 7 + a + b, c)
    && DigitsAt(s, i + 7 + a + b + c, d)
  }

  /** The run lengths of the engine's match at `i`: the first three runs are
      forced (a digit is never a space, and "o" is neither), the last is
      the longest. */
  function PageOfParts(s: string, i: nat): (r: Option<(nat, nat, nat, nat)>)
    ensures r.Some? ==> PageOfShape(s, i, r.value.0, r.value.1, r.value.2, r.value.3)
  {
    var t := PageOfRuns(s, i);
    if PageOfShape(s, i, t.0, t.1, t.2, t.3) then Some(t) else None
  }

  /** The longest digit, space, space and digit runs at the places the
      pattern needs them. */
  function PageOfRuns(s: string, i: nat): (nat, nat, nat, nat) {
    if |s| < i + 5 then (0, 0, 0, 0)
    else
      var a := DigitRun(s, i + 5);
      var b := SpaceRun(s, i + 5 + a);
      var c := if i + 7 + a + b <= |s| then SpaceRun(s, i + 7 + a + b) else 0;
      var d := if i + 7 + a + b + c <= |s| then DigitRun(s, i + 7 + a + b + c) else 0;
      (a, b, c, d)
  }

  /** The engine's choice is the greatest valid tuple of run lengths (only
      the last run can vary), and it finds a match whenever one exists. */
  lemma PageOfEngineChoice(s: string, i: nat)
    ensures PageOfParts(s, i).Some? ==>
              forall a: nat, b: nat, c: nat, d: nat :: PageOfShape(s, i, a, b, c, d) ==>
                var t := PageOfParts(s, i).value;
                a == t.0 && b == t.1 && c == t.2 && d <= t.3
    ensures PageOfParts(s, i).None? ==>
              forall a: nat, b: nat, c: nat, d: nat :: !PageOfShape(s, i, a, b, c, d)
  {
    var t := PageOfRuns(s, i);
    forall a: nat, b: nat, c: nat, d: nat | PageOfShape(s, i, a, b, c, d)
      ensures a == t.0 && b == t.1 && c == t.2 && d <= t.3
      ensures PageOfShape(s, i, t.0, t.1, t.2, t.3)
    {
      PageOfRunsOfShape(s, i, a, b, c, d);
      PageOfWiden(s, i, a, b, c, d, t.3);
    }
  }

  lemma PageOfRunsOfShape(s: string, i: nat, a: nat, b: nat, c: nat, d: nat)
    requires PageOfShape(s, i, a, b, c, d)
    ensures PageOfRuns(s, i) == (a, b, c, DigitRun(s, i + 7 + a + b + c))
    ensures d <= DigitRun(s, i + 7 + a + b + c)
  {
    PageOfShapeForced(s, i, a, b, c, d);
    RunsFrom(s, i, a, b, c);
  }

  /** `PageOfRuns` from the first three runs it finds. */
  lemma RunsFrom(s: string, i: nat, a: nat, b: nat, c: nat)
    requires i + 7 + a + b + c <= |s|
    requires a == DigitRun(s, i + 5) && b == SpaceRun(s, i + 5 + a) && c == SpaceRun(s, i + 7 + a + b)
    ensures PageOfRuns(s, i) == (a, b, c, DigitRun(s, i + 7 + a + b + c))
  {
    var t := PageOfRuns(s, i);
    assert t.0 == a;
    assert t.1 == b;
    assert t.2 == c;
  }

  lemma PageOfWiden(s: string, i: nat, a: nat, b: nat, c: nat, d: nat, d': nat)
    requires PageOfShape(s, i, a, b, c, d)
    requires d <= d' && DigitsAt(s, i + 7 + a + b + c, d')
    ensures PageOfShape(s, i, a, b, c, d')
  {
  }

  /** Whatever runs a match uses, the first three are the longest runs
      available and the last is at most the longest. */
  lemma PageOfShapeForced(s: string, i: nat, a: nat, b: nat, c: nat, d: nat)
    requires PageOfShape(s, i, a, b, c, d)
    ensures && a == DigitRun(s, i + 5)
            && b == SpaceRun(s, i + 5 + a)
            && c == SpaceRun(s, i + 7 + a + b)
            && d <= DigitRun(s, i + 7 + a + b + c)
  {
    DigitRunMaximal(s, i + 5, a);
    SpaceRunMaximal(s, i + 5 + a, b);
    DigitIsNotSpace(s[i + 7 + a + b + c]);
    SpaceRunMaximal(s, i + 7 + a + b, c);
    DigitRunBound(s, i + 7 + a + b + c, d);
  }

  lemma DigitRunMaximal(s: string, j: nat, n: nat)
    requires DigitsAt(s, j, n)
    requires j + n < |s| ==> !IsDigit(s[j + n])
    ensures n == DigitRun(s, j)
  {
  }

  lemma DigitRunBound(s: string, j: nat, n: nat)
    requires DigitsAt(s, j, n)
    ensures n <= DigitRun(s, j)
  {
  }

  lemma SpaceRunMaximal(s: string, j: nat, n: nat)
    requires SpacesAt(s, j, n)
    requires j + n < |s| ==> !IsSpace(s[j + n])
    ensures n == SpaceRun(s, j)
  {
  }

  // ----- the engine ---------------------------------------------------------

  /** Length of the match the engine makes at position `i` (0: no match).
      No pattern here matches the empty string. */
  function MatchLen(p: Pattern, s: string, i: nat): (n: nat)
    ensures n == 0 || i + n <= |s|
  {
    match p
    case StrictDate => if StrictDateAt(s, i) then 10 else 0
    case ANumber => if ANumberAt(s, i) then 10 else 0
    case LooseDate => LooseDateLen(s, i)
    case FormName => FormNameLen(s, i)
    case PageOfTotal => PageOfLen(s, i)
  }

  function LooseDateLen(s: string, i: nat): (n: nat)
    ensures n == 0 || i + n <= |s|
  {
    match LooseDateParts(s, i)
    case None => 0
    case Some(t) => t.0 + t.1 + t.2 + 2
  }

  function FormNameLen(s: string, i: nat): (n: nat)
    ensures n == 0 || i + n <= |s|
  {
    match FormNameParts(s, i)
    case None => 0
    case Some(t) => 7 + t.0 + t.1
  }

  function PageOfLen(s: string, i: nat): (n: nat)
    ensures n == 0 || i + n <= |s|
  {
    match PageOfParts(s, i)
    case None => 0
    case Some(t) => 7 + t.0 + t.1 + t.2 + t.3
  }

  predicate MatchesAt(p: Pattern, s: string, i: nat) {
    MatchLen(p, s, i) > 0
  }

  function MatcherOf(p: Pattern): Matcher {
    (s: string, i: nat) => MatchLen(p, s, i)
  }

  lemma LenOfPattern(p: Pattern, s: string)
    ensures forall i: nat :: Len(MatcherOf(p), s, i) == MatchLen(p, s, i)
  {
  }

  // ----- re.findall and re.search ------------------------------------------

  /** Where `re.findall(p, s)` finds its matches. */
  function MatchStarts(p: Pattern, s: string): (r: seq<nat>)
    ensures forall k :: 0 <= k < |r| ==> MatchesAt(p, s, r[k])
    ensures forall k1, k2 :: 0 <= k1 < k2 < |r| ==> r[k1] + MatchLen(p, s, r[k1]) <= r[k2]
  {
    LenOfPattern(p, s);
    Starts(MatcherOf(p), s, 0)
  }

  /** `re.findall` reports every match position except those strictly
      inside a match it reports. */
  lemma FindAllComplete(p: Pattern, s: string, j: nat)
    requires MatchesAt(p, s, j)
    ensures var r := MatchStarts(p, s);
            j in r || exists k :: 0 <= k < |r| && r[k] < j < r[k] + MatchLen(p, s, r[k])
  {
    LenOfPattern(p, s);
    StartsComplete(MatcherOf(p), s, 0, j);
    var r := MatchStarts(p, s);
    if j !in r {
      var k :| 0 <= k < |r| && Inside(MatcherOf(p), s, r[k], j);
    }
  }

  /** The matched substrings, in order: `re.findall(p, s)` for the three
      patterns it is used with (checks.py:40, 58 and 130), which are
      group-free or have one group around the whole pattern. */
  function FindAll(p: Pattern, s: string): seq<string> {
    var starts := MatchStarts(p, s);
    seq(|starts|, k requires 0 <= k < |starts| => s[starts[k]..starts[k] + MatchLen(p, s, starts[k])])
  }

  /** `re.search(p, s)`: the leftmost match position, if any. */
  function Search(p: Pattern, s: string): (r: Option<nat>)
    ensures r.Some? ==> MatchesAt(p, s, r.value)
    ensures r.Some? ==> forall j: nat :: j < r.value ==> !MatchesAt(p, s, j)
    ensures r.None? ==> forall j: nat :: !MatchesAt(p, s, j)
  {
    LenOfPattern(p, s);
    SearchFrom(MatcherOf(p), s, 0)
  }

  /** `re.search` finds nothing exactly when `re.findall` finds nothing, and
      otherwise its match is the first one `re.findall` reports. */
  lemma SearchIsFirstFound(p: Pattern, s: string)
    ensures Search(p, s).None? <==> FindAll(p, s) == []
    ensures Search(p, s).Some? ==> Search(p, s).value == MatchStarts(p, s)[0]
  {
    SearchIsFirstStart(MatcherOf(p), s, 0);
  }

  // ----- facts about the matched substrings ------------------------------

  /** Every `\d{2}/\d{2}/\d{4}` match is ten characters of that exact shape. */
  lemma FoundStrictDates(s: string)
    ensures forall c :: c in FindAll(StrictDate, s) ==> |c| == 10 && StrictDateAt(c, 0)
  {
    var found := FindAll(StrictDate, s);
    forall c | c in found ensures |c| == 10 && StrictDateAt(c, 0) {
      var k :| 0 <= k < |found| && found[k] == c;
      StrictDateFound(s, k);
    }
  }

  lemma StrictDateFound(s: string, k: nat)
    requires k < |FindAll(StrictDate, s)|
    ensures |FindAll(StrictDate, s)[k]| == 10 && StrictDateAt(FindAll(StrictDate, s)[k], 0)
  {
    var j := MatchStarts(StrictDate, s)[k];
    assert MatchesAt(StrictDate, s, j);
    assert StrictDateAt(s, j);
    assert FindAll(StrictDate, s)[k] == s[j..j + 10];
    StrictDateSlice(s, j);
  }

  lemma StrictDateSlice(s: string, j: nat)
    requires StrictDateAt(s, j)
    ensures StrictDateAt(s[j..j + 10], 0)
  {
  }

  /** Every `A\d{9}` match is an "A" followed by nine digits. */
  lemma FoundANumbers(s: string)
    ensures forall c :: c in FindAll(ANumber, s) ==> |c| == 10 && ANumberAt(c, 0)
  {
    var found := FindAll(ANumber, s);
    forall c | c in found ensures |c| == 10 && ANumberAt(c, 0) {
      var k :| 0 <= k < |found| && found[k] == c;
      ANumberFound(s, k);
    }
  }

  lemma ANumberFound(s: string, k: nat)
    requires k < |FindAll(ANumber, s)|
    ensures |FindAll(ANumber, s)[k]| == 10 && ANumberAt(FindAll(ANumber, s)[k], 0)
  {
    var j := MatchStarts(ANumber, s)[k];
    assert MatchesAt(ANumber, s, j);
    assert ANumberAt(s, j);
    assert FindAll(ANumber, s)[k] == s[j..j + 10];
    ANumberSlice(s, j);
  }

  lemma ANumberSlice(s: string, j: nat)
    requires ANumberAt(s, j)
    ensures ANumberAt(s[j..j + 10], 0)
  {
  }

  /** A `\d{1,2}/\d{1,2}/\d{2,4}` match passes `re.match` with
      `\d{2}/\d{2}/\d{4}` exactly when it is ten characters long, i.e. has the
      2/2/4 digit shape; whether it is a real calendar date plays no part. */
  lemma LooseDateStrictness(s: string)
    ensures forall c :: c in FindAll(LooseDate, s) ==>
              (MatchesAt(StrictDate, c, 0) <==> |c| == 10)
  {
    var found := FindAll(LooseDate, s);
    forall c | c in found ensures MatchesAt(StrictDate, c, 0) <==> |c| == 10 {
      var k :| 0 <= k < |found| && found[k] == c;
      LooseDateFound(s, k);
    }
  }

  lemma LooseDateFound(s: string, k: nat)
    requires k < |FindAll(LooseDate, s)|
    ensures var c := FindAll(LooseDate, s)[k];
            MatchesAt(StrictDate, c, 0) <==> |c| == 10
  {
    var j := MatchStarts(LooseDate, s)[k];
    assert MatchesAt(LooseDate, s, j);
    assert LooseDateParts(s, j).Some?;
    assert FindAll(LooseDate, s)[k] == s[j..j + LooseDateLen(s, j)];
    LooseDateSlice(s, j);
  }

  lemma LooseDateSlice(s: string, j: nat)
    requires LooseDateParts(s, j).Some?
    ensures var c := s[j..j + LooseDateLen(s, j)];
            StrictDateAt(c, 0) <==> |c| == 10
  {
    var t := LooseDateParts(s, j).value;
    var c := s[j..j + LooseDateLen(s, j)];
    assert |c| == t.0 + t.1 + t.2 + 2;
    if |c| == 10 {
      assert t.0 == 2 && t.1 == 2 && t.2 == 4;
      assert StrictDateAt(c, 0);
    }
  }
}

=== FILE: scanning.dfy ===
/** Leftmost, non-overlapping scanning of a string with any matcher: the
    search loop behind Python's `re.findall` and `re.search`. */
module Scanning {
  import opened Chars

  /** A matcher gives the length of the match at a position, 0 for none. */
  type Matcher = (string, nat) -> nat

  /** The matcher's answer, kept only when the match lies inside `s`. */
  function Len(m: Matcher, s: string, i: nat): (n: nat)
    ensures n == 0 || i + n <= |s|
  {
    if i + m(s, i) <= |s| then m(s, i) else 0
  }

  /** The start positions of the matches `re.findall` reports when it scans
      `s` from `i`: each is a match at or after `i`, and they come in order
      without overlapping. */
  function Starts(m: Matcher, s: string, i: nat): (r: seq<nat>)
    ensures forall k :: 0 <= k < |r| ==> i <= r[k] && Len(m, s, r[k]) > 0
    ensures forall k1, k2 :: 0 <= k1 < k2 < |r| ==> r[k1] + Len(m, s, r[k1]) <= r[k2]
    decreases |s| - i
  {
    if i >= |s| then []
    else if Len(m, s, i) > 0 then [i] + Starts(m, s, i + Len(m, s, i))
    else Starts(m, s, i + 1)
  }

  /** Position `j` is reported in `r`, or lies strictly inside a match
      reported there. */
  ghost predicate Accounted(m: Matcher, s: string, r: seq<nat>, j: nat) {
    j in r || exists k :: 0 <= k < |r| && Inside(m, s, r[k], j)
  }

  /** `j` lies strictly inside the match starting at `start`. */
  ghost predicate Inside(m: Matcher, s: string, start: nat, j: nat) {
    start < j < start + Len(m, s, start)
  }

  /** The scan misses no match except inside one it reports: every match
      position at or after `i` is reported or lies strictly inside a
      reported match. */
  lemma {:induction false} StartsComplete(m: Matcher, s: string, i: nat, j: nat)
    requires i <= j && Len(m, s, j) > 0
    ensures Accounted(m, s, Starts(m, s, i), j)
    decreases |s| - i
  {
    var r := Starts(m, s, i);
    var n := Len(m, s, i);
    if n == 0 {
      StartsComplete(m, s, i + 1, j);
    } else if j == i {
      assert r[0] == j;
    } else if j < i + n {
      assert Inside(m, s, r[0], j);
    } else {
      var rest := Starts(m, s, i + n);
      assert r == [i] + rest;
      StartsComplete(m, s, i + n, j);
      if j in rest {
        assert j in r;
      } else {
        var k :| 0 <= k < |rest| && Inside(m, s, rest[k], j);
        assert r[k + 1] == rest[k];
      }
    }
  }

  /** The leftmost match at or after `i`, if any. */
  function SearchFrom(m: Matcher, s: string, i: nat): (r: Option<nat>)
    ensures r.Some? ==> i <= r.value && Len(m, s, r.value) > 0
    ensures r.Some? ==> forall j: nat :: i <= j < r.value ==> Len(m, s, j) == 0
    ensures r.None? ==> forall j: nat :: i <= j ==> Len(m, s, j) == 0
    decreases |s| - i
  {
    if i >= |s| then None
    else if Len(m, s, i) > 0 then Some(i)
    else SearchFrom(m, s, i + 1)
  }

  /** Searching finds nothing exactly when scanning finds nothing, and
      otherwise its match is the first one the scan reports. */
  lemma {:induction false} SearchIsFirstStart(m: Matcher, s: string, i: nat)
    ensures SearchFrom(m, s, i).None? <==> Starts(m, s, i) == []
    ensures SearchFrom(m, s, i).Some? ==> SearchFrom(m, s, i).value == Starts(m, s, i)[0]
    decreases |s| - i
  {
    if i < |s| && Len(m, s, i) == 0 {
      SearchIsFirstStart(m, s, i + 1);
    }
  }

}

=== FILE: text_checks.dfy ===
/** The checks that read each page's whole text: signature date recency,
    the "Jeffrey Hales" preparer signature, and A-Number consistency. */
module TextChecks {
  import opened Chars
  import opened Patterns
  import opened Calendar
  import opened Document

  // ----- signature date recency ------------------------------------------------

  /** A found `dd/dd/dddd` text that strptime accepts as `%m/%d/%Y` and that
      falls outside the last 90 days. Texts strptime rejects are skipped. */
  predicate IsStale(c: string, now: Clock) {
    && |c| == 10 && StrictDateAt(c, 0)
    && ParseDate(c).Some?
    && !WithinLastNinetyDays(ParseDate(c).value, now)
  }

  /** One finding per stale date, in order; a repeated date is reported as
      often as it occurs. */
  function StaleFindings(cands: seq<string>, number: nat, now: Clock): (r: seq<Finding>)
    ensures forall f :: f in r <==>
              f.StaleSignatureDate? && f.page == number && f.date in cands && IsStale(f.date, now)
    ensures forall c :: multiset(r)[StaleSignatureDate(number, c)] ==
              if IsStale(c, now) then multiset(cands)[c] else 0
  {
    if cands == [] then []
    else
      assert cands == [cands[0]] + cands[1..];
      (if IsStale(cands[0], now) then [StaleSignatureDate(number, cands[0])] else [])
        + StaleFindings(cands[1..], number, now)
  }

  /** What the recency rule reports: a date found on the page (numbered
      from 1) that parses and is stale. */
  ghost predicate ReportedStale(doc: seq<Page>, now: Clock, f: Finding) {
    && f.StaleSignatureDate?
    && 1 <= f.page <= |doc|
    && f.date in FindAll(StrictDate, doc[f.page - 1].text)
    && IsStale(f.date, now)
  }

  /** How many times the recency rule reports `f`: once for each
      occurrence of its date among the page's matches. */
  ghost function StaleCount(doc: seq<Page>, now: Clock, f: Finding): nat {
    if f.StaleSignatureDate? && 1 <= f.page <= |doc| && IsStale(f.date, now)
    then multiset(FindAll(StrictDate, doc[f.page - 1].text))[f.date]
    else 0
  }

  /** Signature date recency: every `\d{2}/\d{2}/\d{4}` text anywhere on a
      page that is a real date outside the window `[now - 90 days, now]`,
      reported with its page number, once per occurrence, in page order. */
  function SignatureDateRecency(doc: seq<Page>, now: Clock): (r: seq<Finding>)
    requires ValidClock(now)
    ensures forall f :: f in r <==> ReportedStale(doc, now, f)
    ensures forall f :: multiset(r)[f] == StaleCount(doc, now, f)
    ensures forall i, j :: 0 <= i < j < |r| ==> PageNumber(r[i]) <= PageNumber(r[j])
  {
    if doc == [] then []
    else
      var front := SignatureDateRecency(doc[..|doc| - 1], now);
      var here := StaleFindings(FindAll(StrictDate, doc[|doc| - 1].text), |doc|, now);
      RecencyStep(doc, now, front, here);
      RecencyCountStep(doc, now, front, here);
      front + here
  }

  lemma RecencyStep(doc: seq<Page>, now: Clock, front: seq<Finding>, here: seq<Finding>)
    requires doc != []
    requires forall f :: f in front <==> ReportedStale(doc[..|doc| - 1], now, f)
    requires forall i, j :: 0 <= i < j < |front| ==> PageNumber(front[i]) <= PageNumber(front[j])
    requires forall f :: f in here <==>
               && f.StaleSignatureDate? && f.page == |doc|
               && f.date in FindAll(StrictDate, doc[|doc| - 1].text) && IsStale(f.date, now)
    ensures forall f :: f in front + here <==> ReportedStale(doc, now, f)
    ensures forall i, j :: 0 <= i < j < |front + here| ==>
              PageNumber((front + here)[i]) <= PageNumber((front + here)[j])
  {
    var prefix := doc[..|doc| - 1];
    forall f ensures ReportedStale(prefix, now, f) <==> ReportedStale(doc, now, f) && f.page < |doc| {
      if f.StaleSignatureDate? && 1 <= f.page < |doc| {
        assert prefix[f.page - 1] == doc[f.page - 1];
      }
    }
    var r := front + here;
    forall i, j | 0 <= i < j < |r| ensures PageNumber(r[i]) <= PageNumber(r[j]) {
      assert r[i] in front || r[i] in here;
      assert r[j] in front || r[j] in here;
      if i < |front| && j >= |front| {
        assert r[i] in front && r[j] in here;
      }
    }
  }

  /** The counts of the document without its last page, plus those of the
      last page, are the document's counts. */
  lemma RecencyCountStep(doc: seq<Page>, now: Clock, front: seq<Finding>, here: seq<Finding>)
    requires doc != []
    requires forall f :: multiset(front)[f] == StaleCount(doc[..|doc| - 1], now, f)
    requires forall f :: f in here ==> f.StaleSignatureDate? && f.page == |doc|
    requires forall c :: multiset(here)[StaleSignatureDate(|doc|, c)] ==
               if IsStale(c, now) then multiset(FindAll(StrictDate, doc[|doc| - 1].text))[c] else 0
    ensures forall f :: multiset(front + here)[f] == StaleCount(doc, now, f)
  {
    forall f ensures multiset(front + here)[f] == StaleCount(doc, now, f) {
      assert multiset(front + here)[f] == multiset(front)[f] + multiset(here)[f];
      if f.StaleSignatureDate? && f.page == |doc| {
        LastPageStaleCount(doc, now, f);
        assert f == StaleSignatureDate(|doc|, f.date);
      } else {
        OtherPageStaleCount(doc, now, f);
        assert multiset(front)[f] == StaleCount(doc[..|doc| - 1], now, f);
        NotInCountsZero(here, f);
      }
    }
  }

  lemma LastPageStaleCount(doc: seq<Page>, now: Clock, f: Finding)
    requires doc != [] && f.StaleSignatureDate? && f.page == |doc|
    ensures StaleCount(doc[..|doc| - 1], now, f) == 0
    ensures StaleCount(doc, now, f) ==
              if IsStale(f.date, now) then multiset(FindAll(StrictDate, doc[|doc| - 1].text))[f.date] else 0
  {
  }

  /** The count of a finding not on the last page is the same with or
      without that page. */
  lemma OtherPageStaleCount(doc: seq<Page>, now: Clock, f: Finding)
    requires doc != [] && !(f.StaleSignatureDate? && f.page == |doc|)
    ensures StaleCount(doc[..|doc| - 1], now, f) == StaleCount(doc, now, f)
  {
    if f.StaleSignatureDate? && 1 <= f.page < |doc| {
      assert doc[..|doc| - 1][f.page - 1] == doc[f.page - 1];
    }
  }

  /** In calendar days: a reported date is a real date that is later than
      today, earlier than the day 90 days ago, or that day itself when the
      clock is past midnight. */
  lemma StaleInDays(doc: seq<Page>, now: Clock)
    requires ValidClock(now)
    ensures forall f :: f in SignatureDateRecency(doc, now) ==>
              && |f.date| == 10 && StrictDateAt(f.date, 0)
              && ParseDate(f.date).Some?
              && var day := Ordinal(ParseDate(f.date).value);
                 day > now.day || day < now.day - 90 || (day == now.day - 90 && now.micros > 0)
  {
    forall f | f in SignatureDateRecency(doc, now)
      ensures && |f.date| == 10 && StrictDateAt(f.date, 0) && ParseDate(f.date).Some?
              && var day := Ordinal(ParseDate(f.date).value);
                 day > now.day || day < now.day - 90 || (day == now.day - 90 && now.micros > 0)
    {
      WindowInDays(ParseDate(f.date).value, now);
    }
  }

  /** A date strptime rejects (say 13/45/2024) is never reported, whatever
      the clock reads. */
  lemma InvalidDatesSkipped(doc: seq<Page>, now: Clock, c: string)
    requires ValidClock(now)
    requires |c| == 10 && StrictDateAt(c, 0) && ParseDate(c).None?
    ensures forall f :: f in SignatureDateRecency(doc, now) ==> f.date != c
  {
  }

  /** A date written today is never reported. */
  lemma TodayIsRecent(doc: seq<Page>, now: Clock, d: Date)
    requires ValidClock(now) && ValidDate(d) && Ordinal(d) == now.day
    ensures forall f :: f in SignatureDateRecency(doc, now) ==> f.date != FormatDate(d)
  {
    ParseFormatted(d);
    WindowInDays(d, now);
  }

  // ----- the preparer ------------------------------------------------------------

  const PreparerName := "Jeffrey Hales"
  const PreparerLabel := "Preparer's Signature"

  /** The page search finds the preparer's name on the page. */
  predicate ListsPreparer(page: Page) {
    page.search(PreparerName) != []
  }

  /** A page listing the preparer has the preparer's signature label but no
      `dd/dd/dddd` text anywhere (`re.search` finds nothing). */
  predicate PreparerDateAbsent(page: Page) {
    && ListsPreparer(page)
    && Contains(page.text, PreparerLabel)
    && Search(StrictDate, page.text).None?
  }

  /** The findings for the pages listing the preparer, in page order. */
  function PreparerPages(doc: seq<Page>): (r: seq<Finding>)
    ensures forall f :: f in r <==>
              f.PreparerDateMissing? && 1 <= f.page <= |doc| && PreparerDateAbsent(doc[f.page - 1])
    ensures forall i, j :: 0 <= i < j < |r| ==> PageNumber(r[i]) < PageNumber(r[j])
  {
    if doc == [] then []
    else
      var front := PreparerPages(doc[..|doc| - 1]);
      assert forall p :: 0 <= p < |doc| - 1 ==> doc[..|doc| - 1][p] == doc[p];
      front + (if PreparerDateAbsent(doc[|doc| - 1]) then [PreparerDateMissing(|doc|)] else [])
  }

  /** A page is only reported when it lists the preparer. */
  lemma PreparerPagesNeedPreparer(doc: seq<Page>)
    ensures PreparerPages(doc) != [] ==> exists p :: 0 <= p < |doc| && ListsPreparer(doc[p])
  {
    var r := PreparerPages(doc);
    if r != [] {
      assert r[0] in r;
      assert ListsPreparer(doc[r[0].page - 1]);
    }
  }

  /** No date of the strict shape starts anywhere in the text. */
  ghost predicate NoStrictDate(text: string) {
    forall j: nat :: !StrictDateAt(text, j)
  }

  /** `re.search` finds no strict date exactly when none starts anywhere. */
  lemma SearchFindsNoDate(text: string)
    ensures Search(StrictDate, text).None? <==> NoStrictDate(text)
  {
    match Search(StrictDate, text)
    case Some(i) =>
      assert MatchesAt(StrictDate, text, i);
    case None =>
      forall j: nat ensures !StrictDateAt(text, j) {
        assert !MatchesAt(StrictDate, text, j);
      }
  }

  /** The preparer rule: if no page lists "Jeffrey Hales", exactly one
      "not found" finding; otherwise one finding for each page that lists
      the name, carries the preparer's signature label and shows no date, in
      page order. */
  function Preparer(doc: seq<Page>): (r: seq<Finding>)
    ensures (forall p :: 0 <= p < |doc| ==> !ListsPreparer(doc[p])) ==> r == [PreparerNotFound]
    ensures (exists p :: 0 <= p < |doc| && ListsPreparer(doc[p])) ==>
              && (forall f :: f in r <==>
                    && f.PreparerDateMissing? && 1 <= f.page <= |doc|
                    && ListsPreparer(doc[f.page - 1])
                    && Contains(doc[f.page - 1].text, PreparerLabel)
                    && NoStrictDate(doc[f.page - 1].text))
              && (forall i, j :: 0 <= i < j < |r| ==> PageNumber(r[i]) < PageNumber(r[j]))
  {
    var pages := PreparerPages(doc);
    if exists p | 0 <= p < |doc| :: ListsPreparer(doc[p]) then
      forall p | 0 <= p < |doc| ensures Search(StrictDate, doc[p].text).None? <==> NoStrictDate(doc[p].text) {
        SearchFindsNoDate(doc[p].text);
      }
      pages
    else
      PreparerPagesNeedPreparer(doc);
      pages + [PreparerNotFound]
  }

  /** A preparer page showing a date of the strict shape anywhere, even one
      that is not a real date, is not reported. */
  lemma PreparerAnyDateCounts(doc: seq<Page>, p: nat, j: nat)
    requires p < |doc| && ListsPreparer(doc[p]) && StrictDateAt(doc[p].text, j)
    ensures PreparerDateMissing(p + 1) !in Preparer(doc)
  {
  }

  // ----- A-Numbers ---------------------------------------------------------------

  /** The A-Numbers (`A` and nine digits) found on one page. */
  function ANumbersOn(page: Page): set<string> {
    set c | c in FindAll(ANumber, page.text)
  }

  /** Every distinct A-Number in the document. */
  ghost function ANumberValues(doc: seq<Page>): set<string> {
    set p, c | 0 <= p < |doc| && c in FindAll(ANumber, doc[p].text) :: c
  }

  /** A-Number consistency: nothing when exactly one distinct A-Number
      appears, "none found" when there is none, and one finding listing
      them all when there are several. */
  function ANumbers(doc: seq<Page>): (r: seq<Finding>)
    ensures ANumberValues(doc) == {} <==> r == [NoANumber]
    ensures |ANumberValues(doc)| == 1 <==> r == []
    ensures |ANumberValues(doc)| > 1 <==> r == [InconsistentANumbers(ANumberValues(doc))]
  {
    var numbers := Gather(doc, ANumbersOn);
    ANumbersGathered(doc);
    if |numbers| > 1 then [InconsistentANumbers(numbers)]
    else if numbers == {} then [NoANumber]
    else []
  }

  lemma ANumbersGathered(doc: seq<Page>)
    ensures Gather(doc, ANumbersOn) == ANumberValues(doc)
  {
    var g := Gather(doc, ANumbersOn);
    forall x | x in ANumberValues(doc) ensures x in g {
      var p :| 0 <= p < |doc| && x in FindAll(ANumber, doc[p].text);
      assert x in ANumbersOn(doc[p]);
    }
  }

  /** Every A-Number listed is an `A` followed by nine digits. */
  lemma ANumbersWellFormed(doc: seq<Page>)
    ensures forall c :: c in ANumberValues(doc) ==> |c| == 10 && ANumberAt(c, 0)
  {
    forall c | c in ANumberValues(doc) ensures |c| == 10 && ANumberAt(c, 0) {
      var p :| 0 <= p < |doc| && c in FindAll(ANumber, doc[p].text);
      FoundANumbers(doc[p].text);
    }
  }

  /** Repeating the same A-Number on every page that has one is consistent. */
  lemma SameANumberEverywhere(doc: seq<Page>, a: string, p: nat)
    requires p < |doc| && a in FindAll(ANumber, doc[p].text)
    requires forall q, c :: 0 <= q < |doc| && c in FindAll(ANumber, doc[q].text) ==> c == a
    ensures ANumbers(doc) == []
  {
    assert ANumberValues(doc) == {a};
  }
}
